=== FILE: README.md ===
# Facebook group phone scraper — a Dafny model

This project models the core of a small Node.js service. The service scrolls a
Facebook group in a headless browser and collects the phone numbers found in posts.
It returns them as a CSV, one row per post author.

The model covers three parts of the service:

- **The scraper** (`scraper.js`):
  - retrying navigation and the login check;
  - phone extraction with its regular expression, normalisation, length filter and
    deduplication;
  - author-label cleanup;
  - the per-post merge into the run's state;
  - the scroll loop with its progress reports and its early stop at 800 numbers;
  - the CSV text.
- **The server** (`server.js`): the in-memory job store as a state machine. Its
  transitions are POST /scrape, background completion, failure and progress, the
  GET /events stream with its once-only "done" and "error" listeners, GET /download
  with its removal timer, and POST /cancel.
- **The page script** (`public/script.js`): how the submit handler filters cookies and
  refuses submissions, the scroll-limit default, how saved cookies are aged on load,
  live validation, and the error handler's rule for clearing cookies.

The browser, the clock and `JSON.parse` are replaced by inputs.

Modules:

- `Wrappers`, `Text`, `Seqs` and `Json` hold shared definitions.
- `Phones`, `Labels`, `Extraction`, `Csv` and `Scraper` model `scraper.js`.
- `Jobs` and `JobLemmas` model `server.js`.
- `Client` models `public/script.js`.

Each operation has a partner:

- the scanners are checked against declarative pattern predicates;
- the CSV writer against a decoder;
- the merge against a state invariant;
- the job store against an invariant over its event log.

The job store's transition function `Jobs.Step` is the server with the three
corrections listed under "## Findings":
- a create takes a fresh id (`Jobs.Create`);
- a failure report emits "error" only when someone listens (`Jobs.Fail`);
- a cancel emits "error" only when someone listens, and always removes the job
  (`Jobs.Cancel`).

The handlers as written are modelled next to them (`Jobs.CreateAsWritten`,
`Jobs.FailAsWritten`, `Jobs.CancelAsWritten`). Each corrected handler does exactly
what the handler as written does under these conditions:
- `JobLemmas.CreateAgrees`: the clock has moved past every earlier id;
- `JobLemmas.FailFixed` and `JobLemmas.CancelAgrees`: a stream is listening for "error".

The invariant lemmas (`JobLemmas.StepInv`, `JobLemmas.RunInv` and the per-handler ones)
are about the corrected server. The server as written breaks the invariant
(`JobLemmas.CancelUnheardAsWritten`, `JobLemmas.CreateCollisionAsWritten`).

## Model

| member | source | states |
|---|---|---|
| Text.TrimIsTrimmed | public/script.js:159-162 | `trim()` yields a string that neither starts nor ends with white space; it is empty exactly when the input is all white space |
| Text.TrimUnchanged | scraper.js:219-221 | trimming an already trimmed label changes nothing, so the second cleanup's trim adds nothing by itself |
| Text.SplitJoin | scraper.js:227 | joining numbers with ", " loses nothing: splitting on the separator gives back exactly the pieces, as long as no piece contains its first character |
| Text.ParseIntOfString | public/script.js:160-161 | base-10 `parseInt` reads back every integer's decimal form as that integer |
| Seqs.Dedup | scraper.js:51-57 | spreading a `Set` keeps each element once, loses none, and orders them by first occurrence in the input |
| Seqs.Filter | scraper.js:222 | `filter` keeps every element that passes the test and only those |
| Seqs.FilterEmpty | public/script.js:178-181 | a filter result is empty exactly when no element passes the test |
| Phones.MatchAtIsLongestMatch | scraper.js:49 | at each index the scanner's match is the longest text there that the pattern `\+?\d[\d\s().\-–—]{7,}\d` matches in full; there is no match exactly when no text there matches |
| Phones.ScanMatches | scraper.js:49 | every span the global search returns is the pattern's match at the span's start |
| Phones.ScanOrdered | scraper.js:49 | the global search's spans come in text order and do not overlap |
| Phones.ScanLeftmost | scraper.js:49 | the global search skips no index where the pattern matches: there is no match before a span or between two spans |
| Phones.NormalizeMatch | scraper.js:54 | stripping everything but digits and `+` from a match leaves digits with at most a leading `+` |
| Phones.ExtractPhones | scraper.js:48-58 | the result has no duplicates; every value is a normalised match of length 8 to 15; every such value appears; values come in order of first occurrence |
| Phones.ExtractedAreWellFormed | scraper.js:54-55 | every extracted value has 8 to 15 characters, all digits except possibly a leading `+` |
| Phones.NoMatchNoPhones | scraper.js:49-50 | a text in which the pattern matches nowhere yields no numbers |
| Phones.ExtractPhonesExample | scraper.js:48-58 | "Call me at +1 (555) 123-4567 or 555.987.6543 today" yields "+15551234567" then "5559876543" |
| Labels.MarkerAtIsMarker | scraper.js:206 | the label scanner finds a marker (white space then "(admin)", or "group", or "page", in any ASCII case) exactly where one starts, and that marker is the only one starting there |
| Labels.StripMarkersUnchanged | scraper.js:206 | the global replace leaves a label unchanged exactly when no marker starts anywhere in it |
| Labels.CleanLabel | scraper.js:205-206 | a cleaned label is never empty and is never padded with white space |
| Labels.CleanPlainLabel | scraper.js:205-206 | a label without markers that is not all white space only loses its surrounding white space |
| Labels.CleanBlankLabel | scraper.js:205-206 | a label that is only white space and markers becomes "Unknown" |
| LabelExamples.AdminMarker | scraper.js:205-206 | "Ann (Admin)" cleans to "Ann": the marker and the white space before it both go |
| LabelExamples.CleanTwice | scraper.js:219-221 | cleaning again is not idempotent: "GrGroupoup" cleans to "Group" on the page and to "Unknown" at the merge |
| Extraction.MakePost | scraper.js:205-208 | a post's id is the first 200 characters of its text (all of it when shorter), and its label is never empty |
| Extraction.SamePrefixSameId | scraper.js:208 | two posts whose texts agree on the first 200 characters share an id, so the later one is skipped |
| Extraction.NewPhones | scraper.js:222 | the new numbers are exactly the post's numbers that were not seen before |
| Extraction.MergePost | scraper.js:212-228 | a post with a seen id changes nothing; otherwise the rows only grow at the end, by at most one, and the seen sets and the counter only grow |
| Extraction.MergePostSpec | scraper.js:212-228 | an unseen post records its id and all its numbers as seen; a row is added exactly when the post is new and has a number not seen before |
| Extraction.MergePostRow | scraper.js:219-227 | the row added for a post carries the post's cleaned label and exactly its unseen numbers, in extraction order |
| Extraction.MergePostInv | scraper.js:212-228 | one post keeps the invariant: every seen number appears exactly once across the rows, the counter counts them, and every row has a label and a well-formed number |
| Extraction.MergeBatch | scraper.js:212-228 | a page read's posts only extend the rows and never lower the counter |
| Extraction.MergeBatchInv | scraper.js:212-228 | a whole page read keeps the invariant |
| Extraction.MergeAll | scraper.js:153-239 | successive page reads only extend the rows and never lower the counter |
| Extraction.MergeAllInv | scraper.js:153-239 | any number of page reads keep the invariant |
| Extraction.StartInv | scraper.js:147-150 | the empty state before the first scroll satisfies the invariant |
| Extraction.TotalIsSeenCount | scraper.js:226 | the counter always equals the number of distinct numbers seen |
| Extraction.RowsDisjoint | scraper.js:222-227 | no number appears in two rows or twice in one row |
| Extraction.PostPhonesSplit | scraper.js:227 | every row's phone column splits back into that row's numbers |
| Csv.BuildCsv | scraper.js:241-251 | the file starts with the header line `postUser,postPhones` |
| Csv.EmptyCsv | scraper.js:241-251 | with no rows the file is the header line alone |
| Csv.ParseFieldQuote | scraper.js:246-249 | a field in quotes with doubled inner quotes reads back exactly, whatever follows unless that is a quote |
| Csv.ParseRecordOf | scraper.js:246-249 | one written record reads back as the row's label and phone column |
| Csv.ParseRecordsOf | scraper.js:243-251 | line-feed-joined records read back as every row's fields, in row order |
| Csv.ParseQuotedEscape | scraper.js:246-249 | unquoting an escaped field body up to its closing quote gives back the field and what follows |
| Csv.ParseBuildCsv | scraper.js:241-251 | reading the whole file back gives each row's label and phone column, in row order, whatever the fields contain |
| Scraper.SafeGoto | scraper.js:35-45 | navigation is tried at most `retries` times, with a pause between attempts but not after the last; it succeeds exactly when an attempt within the limit loads; otherwise it fails with the last attempt's error |
| Scraper.VerifyLogin | scraper.js:88-98 | the login check fails with "COOKIES_EXPIRED" exactly when the address contains "login" or "checkpoint" or the page shows an e-mail field or a login button |
| Scraper.RunLoop | scraper.js:153-239 | the loop makes at most `limit` iterations; iteration `i` reports the rows and numbers after `i` page reads; it stops early only after a report of at least 800 numbers, and no earlier report reaches 800 |
| Scraper.ProgressMonotone | scraper.js:230 | later progress reports never show fewer rows or fewer numbers |
| Scraper.ReportCountsDistinct | scraper.js:226-230 | every progress report's number count is the number of distinct numbers seen so far |
| Scraper.Scrape | scraper.js:101-274 | a failed home page ends the run with its error, a `null` cookie with the TypeError message, three failed navigation attempts with the last attempt's error, and a failed login check with "COOKIES_EXPIRED", each before any progress; a successful run passed both checks, read pages until the limit or until the first report of at least 800 numbers, and its CSV reads back as the rows of the reads it made |
| Scraper.CsvRowsReadBack | scraper.js:241-251 | a finished run's CSV reads back row by row as each row's label and the row's numbers |
| Jobs.Deliver | server.js:113-124 | one emission never changes which emitter a stream listens to, when it joined or left, or the status it was first sent |
| Jobs.DeliverOk | server.js:113-124 | delivering an emission keeps a stream's frames equal to its info frame plus the log window since it joined, with "done" and "error" relayed only the first time |
| Jobs.EmitOk | server.js:113-124 | an emission keeps every stream's record in step with the log |
| Jobs.ListenerMeansUnseen | server.js:115-116 | an open stream still listens for "error" exactly when no "error" reached it since it joined |
| Jobs.FreshId | server.js:34 | the id is the clock reading when the clock has moved past every earlier id, and always larger than every earlier id |
| Jobs.ScrapeArguments | server.js:50-52 | the server hands the scraper a numeric scroll limit unchanged unless it is 0, and 50 for 0, a missing or a null limit; a cookie array unchanged, even when empty, and an empty list for missing or null cookies |
| Jobs.EmptyInv | server.js:17-18 | the empty store satisfies the store invariant |
| JobLemmas.CreateInv | server.js:27-83 | a create with a fresh id keeps the store invariant |
| JobLemmas.CompleteInv | server.js:55-65 | a completion keeps the store invariant |
| JobLemmas.FailInv | server.js:68-77 | a failure report that emits only to listeners keeps the store invariant |
| JobLemmas.PublishInv | server.js:46 | a progress or log emission keeps the store invariant |
| JobLemmas.SubscribeInv | server.js:86-117 | opening a stream keeps the store invariant |
| JobLemmas.DisconnectInv | server.js:118-124 | closing a stream keeps the store invariant |
| JobLemmas.DownloadInv | server.js:128-144 | a download keeps the store invariant |
| JobLemmas.CancelInv | server.js:147-155 | a cancel that emits only to listeners and always removes the job keeps the store invariant |
| JobLemmas.ExpireInv | server.js:140-143 | a removal timer keeps the store invariant |
| JobLemmas.StepInv | server.js:27-155 | every transition of the corrected server keeps the invariant: stored jobs are never "canceled", hold data exactly when done, belong to their own task, and every stream got exactly its info frame and its window's events |
| JobLemmas.RunInv | server.js:27-155 | in the corrected server, every sequence of requests, background reports and timers from the empty store ends in a store that satisfies the invariant |
| JobLemmas.CreateSpec | server.js:27-39 | a create is accepted exactly when `groupUrl` is a non-empty string, and answers 500 exactly when the body is null; a refused create changes nothing; an accepted job is new, running, without data, and no stored job changes |
| JobLemmas.CompleteThenDownload | server.js:55-65 | after a job's task finishes, a download serves that CSV under the task's file name, or under `facebook_group_<id>.csv` when the name is empty |
| JobLemmas.NotDoneNotReady | server.js:132 | a stored job that is not done answers a download with 400 "Data not ready yet" |
| JobLemmas.FailThenNoDownload | server.js:68-77 | a failed task leaves its job "failed", and a download of it is refused |
| JobLemmas.DownloadRepeat | server.js:128-144 | downloading twice gives the same answer both times and arms one removal timer per download |
| JobLemmas.CancelTwice | server.js:147-155 | cancelling a stored job succeeds and removes only that job; a second cancel answers 404 |
| JobLemmas.SubscribeSpec | server.js:86-117 | a stream opens exactly for a stored job, starts with that job's status, and changes no job |
| JobLemmas.SubscribeThenDone | server.js:55-65 | a stream opened on a running job whose task then finishes is sent the status, then the download link |
| JobLemmas.StatusFinal | server.js:55-77 | a stored job that is done or failed never changes while it stays stored |
| JobLemmas.GoneStaysGone | server.js:34-36 | an id that was issued and then removed never comes back |
| JobLemmas.RelayedFromLog | server.js:108-116 | every frame a stream is sent is an emission on its own emitter within its window |
| JobLemmas.RelayedOnce | server.js:115-116 | a stream is sent at most one "done" and at most one "error" |
| JobLemmas.StreamFrames | server.js:106-116 | every stream opens with its info frame, then carries only events, with at most one "done" and at most one "error" |
| JobLemmas.ClosedStreamFrozen | server.js:118-124 | a closed stream is sent nothing more, whatever happens next |
| JobLemmas.FramesGrow | server.js:96-116 | a stream's frames only ever grow at the end |
| JobLemmas.CancelUnheardAsWritten | server.js:151-153 | with no stream listening for "error", cancel as written answers 500 and leaves the job stored as "canceled", breaking the invariant; a repeated cancel answers 500 again while no stream listens |
| JobLemmas.CancelUnheardExample | server.js:147-155 | creating a job and cancelling it with no stream open answers 500 as written, but succeeds when corrected |
| JobLemmas.CancelFixed | server.js:147-155 | the corrected cancel always succeeds on a stored job, removes it and keeps the invariant |
| JobLemmas.CancelAgrees | server.js:147-155 | when some stream listens, the corrected cancel does exactly what the handler as written does |
| JobLemmas.CreateCollisionAsWritten | server.js:34-36 | a create in the same millisecond as a stored job replaces that job's record; the first task's result then lands on the new record, and a ready download becomes "not ready" |
| JobLemmas.CreateCollisionExample | server.js:34-36 | two creates with the same clock reading leave one job and two tasks with the same id |
| JobLemmas.CreateAgrees | server.js:34-36 | the corrected create does exactly what the handler as written does whenever the clock has moved past every earlier id |
| JobLemmas.FailUnheardAsWritten | server.js:70-76 | with no stream listening for "error", a failing task's emit throws and its promise is rejected with nobody to catch it |
| JobLemmas.FailFixed | server.js:70-76 | the corrected failure report never throws, and matches the handler as written whenever some stream listens |
| Client.FilterCookies | public/script.js:178-180 | the cookie filter throws exactly when an element is null; otherwise it keeps exactly the cookies with a truthy name, a truthy value and no "deleted" in the value |
| Client.ScrollLimit | public/script.js:160-161 | the scroll limit sent is never 0 |
| Client.ScrollLimitOf | public/script.js:160-161 | a field spelling an integer sends that integer, except 0, which sends 50 |
| Client.ScrollLimitNoDigits | public/script.js:160-161 | a field without any digit sends the default 50 |
| Client.Submit | public/script.js:156-203 | an accepted submission has a non-empty URL, at least one cookie, a non-zero scroll limit, and only usable cookies |
| Client.SubmitSpec | public/script.js:156-190 | a submission is refused for a missing URL, or for missing cookie text, in that order; it goes through exactly when the cookie text is an array without nulls holding a usable cookie; it then carries exactly the usable cookies, in pasted order |
| Client.SubmissionAccepted | public/script.js:199-204 | the server accepts every submission the page sends, and hands the scraper the page's scroll limit and cookies unchanged |
| Client.LoadStatus | public/script.js:64-98 | the page reports "no cookies saved" exactly when no item is stored or the item is empty |
| Client.LoadByAge | public/script.js:73-92 | valid saved cookies are removed when older than seven days, flagged as getting old when older than three days, and loaded silently otherwise |
| Client.LoadMonotone | public/script.js:74-76 | as time passes, the same saved cookies only move towards expiry |
| Client.SavedThenLoaded | public/script.js:183-184 | cookies saved by a submission load without warning for three days |
| Client.LiveCheck | public/script.js:124-152 | blank input reports nothing entered; input reports valid exactly when it parses to a non-empty array whose first element has a truthy name and value; it reports invalid JSON exactly when it does not parse or the first element is null; anything else reports missing fields |
| Client.LiveAgreesWithSubmit | public/script.js:124-190 | live validation never reports text that a submission accepts as invalid JSON; text whose first cookie looks valid and is usable is accepted on submit, with that cookie first |
| Client.ErrorMessage | public/script.js:284 | reading the message throws exactly for a null payload |
| Client.OnError | public/script.js:279-297 | the handler as written throws exactly for a null payload; otherwise it shows the payload's message (or "Unknown error") and clears the saved cookies exactly when the message contains "login required", "cookies expired" or "invalid" in any case |
| Client.OnErrorFixed | public/script.js:279-297 | the corrected handler shows the same message and clears the saved cookies exactly when the corrected rule, which also accepts "cookies_expired", matches |
| Client.OnErrorFixedExtends | public/script.js:289 | the corrected handler throws exactly when the handler as written does, shows the same message, and clears the cookies whenever the handler as written does |
| Client.ExpiredLoginOnPageAsWritten | public/script.js:279-297 | when the server relays a failed login check, the page as written shows "COOKIES_EXPIRED" and keeps the saved cookies |
| Client.ErrorMessageOfFailure | public/script.js:284 | the page shows the server's failure and cancel messages unchanged |
| Client.ExpiredLoginKeepsCookiesAsWritten | public/script.js:289 | the scraper's "COOKIES_EXPIRED" message matches none of the clearing rule's alternatives as written, so the expired cookies stay saved |
| Client.ExpiredLoginClearsCookies | public/script.js:289-297 | with the corrected handler a failed login check clears the saved cookies, and every message the rule as written accepts is still accepted |

## Left out

- Browser automation is left out: launching Puppeteer, viewport, setting cookies, scrolling, delays, "see more" clicks and closing the browser. What a run sees is an input `Browser` value: the outcomes of opening the page and navigating, the login widgets, and one list of posts per scroll.
- How post nodes and author names are picked from the DOM (`scraper.js:160-204`) is left out. A page read is given as posts whose label has had its first cleanup.
- Scraper.Scrape: "log" events, console output and the log lines of the `catch` block are left out; only "progress" reports are modelled. Log emissions reach the job store as `Jobs.PublishOp`.
- Scraper.Scrape: the file name built from `new Date().toISOString()` is an input string.
- Scraper.Scrape: setting individual cookies is left out. Only three things about the cookie list matter: whether it is empty, which decides whether the home page is opened first; whether an element is `null`, because `delete c.sameSite` (`scraper.js:132`) then throws before navigation; and failures of `setCookie`, which are caught and logged.
- Scraper.Scrape: a cookie value other than an array (a string or object a direct API call can send through `cookies || []`) is not modelled; the page always sends an array.
- Scraper.Scrape: the scroll limit is an integer. A direct API call can send any truthy JSON value; JavaScript then compares it by coercion, so a non-numeric string gives zero iterations. The page always sends a number.
- Scraper.Scrape: once the login check passes, the run does not fail. So the model cannot show a run that fails after it has started reporting progress. In the source, the scroll and post-read `page.evaluate` calls and `expandAllSeeMore` (`scraper.js:154-159`) can throw in any iteration, and `browser.close()` in the `finally` block (`scraper.js:270-271`) can turn a finished run into a failure.
- The `SIGTERM` handler is left out; it only exits the process.
- Phones.ExtractPhones: strings are sequences of Unicode scalar values, while JavaScript strings are UTF-16 code units. Lengths differ for characters outside the Basic Multilingual Plane. No such character is a digit, a `+` or in the separator class, so extraction gives the same numbers.
- Extraction.MakePost: the id is the first 200 Unicode characters of the text, while `text.slice(0, 200)` (`scraper.js:208`) takes 200 UTF-16 code units. The two agree on text in the Basic Multilingual Plane. They differ on posts with emoji: in JavaScript, 100 emoji followed by "A" and 100 emoji followed by "B" share an id and the second post is skipped; in the model they do not.
- Json: JSON numbers are integers; fractions and exponents in a pasted cookie file or request body are not modelled.
- Client.LoadStatus: `savedAt` is the number that JavaScript's subtraction `Date.now() - parsed.savedAt` (`public/script.js:74`) converts it to. `None` stands for NaN, as for a missing value, an object or a non-numeric string. The conversion itself is not modelled: `null`, `""` and `[]` become 0, and `true` becomes 1. The age uses integer milliseconds.
- `encrypt` and `decrypt` (`public/script.js:23-41`) are left out; they are base64 over JSON. The load handler takes the decoded value as input.
- `JSON.parse` and `JSON.stringify` are library behaviour. Their outcome is an input, `None` standing for a syntax error.
- The page's stream handlers for "log", "progress" and "done" are left out, as are the download fetch and button states (`public/script.js:228-277`). They only display data.
- Saving cookies on live validation (`public/script.js:139-140`) is left out; it stores the same payload shape as `Client.SavedPayload`.
- Jobs.Emit: the event name `evt.type || "progress"` is not modelled. The scraper always sets a type, so each event is given with its kind.
- Jobs: the server's JSON body parser, keep-alive comments and SSE framing are left out. The frames a stream is sent are modelled as a sequence.
- Jobs.Create: the real job id is `Date.now().toString()`, a string. Ids are modelled as the clock's natural-number reading.

## Findings

| source | as written | input that shows it | evidently intended | confidence | as-written member | corrected member |
|---|---|---|---|---|---|---|
| server.js:151-153 | cancel marks the job canceled, then emits "error", then deletes it; Node's emitter throws when "error" has no listener, so the delete is skipped and the request answers 500 | create a job, open no event stream, POST /cancel/<id> | cancel answers `{ ok: true }` and removes the job whether or not a stream listens | not executed | JobLemmas.CancelUnheardAsWritten | JobLemmas.CancelFixed |
| server.js:34-36 | the job id is the millisecond clock, and `jobs.set` overwrites any job already stored under it | two POST /scrape requests in the same millisecond | each create gets its own id; no job record is overwritten | not executed | JobLemmas.CreateCollisionAsWritten | JobLemmas.CreateSpec |
| server.js:70-76 | a failing scrape emits "error" with nobody necessarily listening; the emit throws inside the background task and the rejection goes unhandled; on Node 15 and later an unhandled rejection ends the process, and every stored job is lost | a scrape that fails before any stream opens, or after its stream closed | the failure is recorded and reported to listeners if there are any, without throwing | not executed | JobLemmas.FailUnheardAsWritten | JobLemmas.FailFixed |
| public/script.js:289 | the clearing rule looks for "cookies expired" with a space; the scraper's login check fails with "COOKIES_EXPIRED", with an underscore | an "error" event whose message is "COOKIES_EXPIRED" (scraper.js:96) | expired cookies are cleared from storage | not executed | Client.ExpiredLoginKeepsCookiesAsWritten | Client.ExpiredLoginClearsCookies |

=== FILE: client.dfy ===
/** The browser page's decision rules, lifted out of its event handlers: which pasted
    cookies a submission keeps and when it is refused, the scroll limit it sends, how
    the age of saved cookies is judged on load, what live validation says while the
    user types, and when an error event clears the saved cookies.

    `JSON.parse` is library behaviour: its outcome is taken as an input, `None`
    standing for a syntax error. */
module Client {
  import opened Wrappers
  import opened Text
  import opened Seqs
  import opened Json
  import Scraper
  import Jobs

  // ---- Cookie filter on submit ----

  /** The value of property `key` of a non-null element. */
  function Prop(c: Json, key: string): Option<Json> {
    GetOpt(Some(c), key)
  }

  /** A cookie the submit filter keeps: a truthy name, a truthy value, and a value whose
      string form does not contain "deleted". */
  predicate KeptCookie(c: Json) {
    && Truthy(Prop(c, "name"))
    && Prop(c, "value").Some? && Truthy(Prop(c, "value"))
    && !Contains(StringOf(Prop(c, "value").value), "deleted")
  }

  /** `cookies.filter(...)` over a parsed array, element by element: the callback throws
      on the first null element, since it reads a property of it. */
  function FilterCookies(cs: seq<Json>): (r: Result<seq<Json>, TypeError>)
    ensures r.Err? <==> JNull in cs
    ensures r.Ok? ==> r.value == Filter(cs, KeptCookie)
  {
    if cs == [] then Ok([])
    else if cs[0] == JNull then Err(TypeError)
    else
      match FilterCookies(cs[1..])
      case Err(e) => Err(e)
      case Ok(rest) => Ok(if KeptCookie(cs[0]) then [cs[0]] + rest else rest)
  }

  // ---- Submission ----

  /** Why a submission stops before any request: no URL, no cookie text, or cookie text
      that is not an array with at least one usable cookie. */
  datatype Refusal = UrlMissing | CookiesMissing | CookiesInvalid

  /** What a submission posts to `/scrape`. */
  datatype Submission = Submission(groupUrl: string, scrollLimit: int, cookies: seq<Json>)

  const DefaultScrollLimit: int := 50

  /** `parseInt(text, 10) || 50`: NaN and zero fall back to 50. */
  function ScrollLimit(text: string): (n: int)
    ensures n != 0
  {
    match ParseInt(text)
    case None => DefaultScrollLimit
    case Some(v) => if v == 0 then DefaultScrollLimit else v
  }

  /** The submit handler. `parsed` is what parsing the trimmed cookie text gave. Calling
      `.filter` on anything but an array throws, and so does an empty result; both end
      in the same refusal. */
  function Submit(urlText: string, limitText: string, cookieText: string, parsed: Option<Json>)
    : (r: Result<Submission, Refusal>)
    ensures r.Ok? ==> r.value.groupUrl != [] && r.value.cookies != [] && r.value.scrollLimit != 0
    ensures r.Ok? ==> forall i :: 0 <= i < |r.value.cookies| ==> KeptCookie(r.value.cookies[i])
  {
    var url := Trim(urlText);
    if url == [] then Err(UrlMissing)
    else if Trim(cookieText) == [] then Err(CookiesMissing)
    else
      match parsed
      case Some(JArr(items)) =>
        (match FilterCookies(items)
         case Err(_) => Err(CookiesInvalid)
         case Ok(kept) =>
           if kept == [] then Err(CookiesInvalid) else Ok(Submission(url, ScrollLimit(limitText), kept)))
      case _ => Err(CookiesInvalid)
  }

  /** `JSON.stringify({ groupUrl, scrollLimit, cookies })`, read back by the server. */
  function RequestBody(s: Submission): Json {
    JObj(map["groupUrl" := JStr(s.groupUrl), "scrollLimit" := JNum(s.scrollLimit), "cookies" := JArr(s.cookies)])
  }

  /** A submission goes through exactly when the trimmed URL and cookie text are non-empty,
      the cookie text parses to an array without null elements, and some element is a
      usable cookie; it then carries exactly the usable cookies, in their pasted order. */
  lemma SubmitSpec(urlText: string, limitText: string, cookieText: string, parsed: Option<Json>)
    ensures var r := Submit(urlText, limitText, cookieText, parsed);
      && (r == Err(UrlMissing) <==> Trim(urlText) == [])
      && (r == Err(CookiesMissing) <==> Trim(urlText) != [] && Trim(cookieText) == [])
      && (r.Ok? <==>
            && Trim(urlText) != [] && Trim(cookieText) != []
            && parsed.Some? && parsed.value.JArr? && JNull !in parsed.value.items
            && exists i :: 0 <= i < |parsed.value.items| && KeptCookie(parsed.value.items[i]))
      && (r.Ok? ==>
            r.value == Submission(Trim(urlText), ScrollLimit(limitText), Filter(parsed.value.items, KeptCookie)))
  {
    if Trim(urlText) != [] && Trim(cookieText) != [] && parsed.Some? && parsed.value.JArr? && JNull !in parsed.value.items {
      FilterEmpty(parsed.value.items, KeptCookie);
    }
  }

  /** The scroll limit keeps every integer the field spells out except zero. */
  lemma ScrollLimitOf(n: int)
    ensures ScrollLimit(IntToString(n)) == if n == 0 then DefaultScrollLimit else n
  {
    ParseIntOfString(n);
  }

  /** A field without any digit (empty, or text such as "abc") gives the default. */
  lemma ScrollLimitNoDigits(text: string)
    requires forall k :: 0 <= k < |text| ==> !IsDigit(text[k])
    ensures ScrollLimit(text) == DefaultScrollLimit
  {
    var u := TrimStart(text);
    assert forall k :: 0 <= k < |u| ==> u[k] == text[|text| - |u| + k];
    if |u| >= 2 {
      assert u[1..][0] == u[1];
    }
    if u != [] {
      assert !IsDigit(u[0]);
    }
  }

  /** The server accepts every submission the page sends, and hands the scraper the
      page's scroll limit and cookies unchanged. */
  lemma SubmissionAccepted(s: Submission, st: Jobs.Store, now: nat)
    requires s.groupUrl != [] && s.scrollLimit != 0
    ensures var body := RequestBody(s);
      && Jobs.Create(st, body, now).1.JobCreated?
      && Jobs.OrDefault(GetOpt(Some(body), "scrollLimit"), JNum(DefaultScrollLimit)) == JNum(s.scrollLimit)
      && Jobs.OrDefault(GetOpt(Some(body), "cookies"), JArr([])) == JArr(s.cookies)
  {
  }

  // ---- Saved cookies on load ----

  const DayMs: int := 24 * 3600 * 1000
  /** Saved cookies older than this are removed. */
  const ExpiryAge: int := 7 * DayMs
  /** Saved cookies older than this are loaded with a warning. */
  const AgingAge: int := 3 * DayMs

  datatype CookieStatus = NoneSaved | InvalidSaved | ExpiredCleared | Active | GettingOld

  /** The load handler. `saved` is the stored item (`None` when absent), `decoded` what
      decrypting it gave (`None` for null), `savedAt` the number `parsed.savedAt`
      converts to (`None` for NaN), `now` the clock reading. A NaN age is neither
      expired nor old. */
  function LoadStatus(saved: Option<string>, decoded: Option<Json>, savedAt: Option<int>, now: int): (r: CookieStatus)
    ensures r == NoneSaved <==> saved.None? || saved.value == []
  {
    if saved.None? || saved.value == [] then NoneSaved
    else if !Truthy(GetOpt(decoded, "cookies")) then InvalidSaved
    else if savedAt.None? then Active
    else if now - savedAt.value > ExpiryAge then ExpiredCleared
    else if now - savedAt.value > AgingAge then GettingOld
    else Active
  }

  /** How far along the ageing a status is. */
  function AgeRank(s: CookieStatus): nat {
    match s
    case Active => 0
    case GettingOld => 1
    case ExpiredCleared => 2
    case _ => 0
  }

  /** Classification by age: removed strictly after seven days, flagged strictly after
      three, loaded silently otherwise. */
  lemma LoadByAge(saved: string, decoded: Json, savedAt: int, age: int)
    requires saved != [] && Truthy(GetOpt(Some(decoded), "cookies"))
    ensures var r := LoadStatus(Some(saved), Some(decoded), Some(savedAt), savedAt + age);
      && (r == ExpiredCleared <==> age > 7 * 24 * 60 * 60 * 1000)
      && (r == GettingOld <==> 3 * 24 * 60 * 60 * 1000 < age <= 7 * 24 * 60 * 60 * 1000)
      && (r == Active <==> age <= 3 * 24 * 60 * 60 * 1000)
  {
  }

  /** As time passes the status of the same saved cookies only moves towards expiry. */
  lemma LoadMonotone(saved: Option<string>, decoded: Option<Json>, savedAt: Option<int>, now1: int, now2: int)
    requires now1 <= now2
    ensures AgeRank(LoadStatus(saved, decoded, savedAt, now1)) <= AgeRank(LoadStatus(saved, decoded, savedAt, now2))
  {
  }

  /** What a successful submission stores: `{ cookies, savedAt }`. */
  function SavedPayload(s: Submission, now: int): Json {
    JObj(map["cookies" := JArr(s.cookies), "savedAt" := JNum(now)])
  }

  /** Cookies stored by a submission load without warning for three days. */
  lemma SavedThenLoaded(s: Submission, item: string, savedAt: int, age: int)
    requires item != [] && 0 <= age <= AgingAge
    ensures LoadStatus(Some(item), Some(SavedPayload(s, savedAt)), Some(savedAt), savedAt + age) == Active
  {
  }

  // ---- Live validation while typing ----

  datatype LiveStatus = NothingEntered | LooksValid(cookies: seq<Json>) | MissingFields | InvalidJson

  /** The input handler. `parsed` is what parsing the trimmed text gave. Reading `name`
      of a null first element throws inside the same `try`, so it reads as invalid JSON. */
  function LiveCheck(text: string, parsed: Option<Json>): (r: LiveStatus)
    ensures r.LooksValid? ==> parsed == Some(JArr(r.cookies)) && r.cookies != []
    ensures r == NothingEntered <==> Trim(text) == []
    ensures r.LooksValid? <==>
      && Trim(text) != [] && parsed.Some? && parsed.value.JArr? && parsed.value.items != []
      && parsed.value.items[0] != JNull
      && Truthy(Prop(parsed.value.items[0], "name")) && Truthy(Prop(parsed.value.items[0], "value"))
    ensures r == InvalidJson <==>
      && Trim(text) != []
      && (parsed.None? || (parsed.value.JArr? && parsed.value.items != [] && parsed.value.items[0] == JNull))
    ensures r == MissingFields <==>
      && Trim(text) != [] && parsed.Some?
      && !(&& parsed.value.JArr? && parsed.value.items != []
           && (|| parsed.value.items[0] == JNull
               || (Truthy(Prop(parsed.value.items[0], "name")) && Truthy(Prop(parsed.value.items[0], "value")))))
  {
    if Trim(text) == [] then NothingEntered
    else
      match parsed
      case None => InvalidJson
      case Some(JArr(items)) =>
        if items == [] then MissingFields
        else if items[0] == JNull then InvalidJson
        else if Truthy(Prop(items[0], "name")) && Truthy(Prop(items[0], "value")) then LooksValid(items)
        else MissingFields
      case Some(_) => MissingFields
  }

  /** Live validation and submission agree: text that a submission accepts is never
      reported as missing or as invalid JSON, and text whose first cookie looks valid and
      is not "deleted" is accepted on submit, with that cookie first. */
  lemma LiveAgreesWithSubmit(urlText: string, limitText: string, cookieText: string, parsed: Option<Json>)
    ensures Submit(urlText, limitText, cookieText, parsed).Ok? ==>
      LiveCheck(cookieText, parsed).LooksValid? || LiveCheck(cookieText, parsed) == MissingFields
    ensures (&& Trim(urlText) != []
             && LiveCheck(cookieText, parsed).LooksValid?
             && JNull !in LiveCheck(cookieText, parsed).cookies
             && KeptCookie(LiveCheck(cookieText, parsed).cookies[0]))
            ==> && Submit(urlText, limitText, cookieText, parsed).Ok?
                && Submit(urlText, limitText, cookieText, parsed).value.cookies[0] ==
                   LiveCheck(cookieText, parsed).cookies[0]
  {
    SubmitSpec(urlText, limitText, cookieText, parsed);
    var r := Submit(urlText, limitText, cookieText, parsed);
    if r.Ok? {
      var items := parsed.value.items;
      assert items != [];
      assert items[0] in items;
    }
  }

  // ---- Error events ----

  /** `payload.message || "Unknown error"`; reading a property of a null payload throws. */
  function ErrorMessage(payload: Json): (r: Result<string, TypeError>)
    ensures r.Err? <==> payload == JNull
  {
    match Get(payload, "message")
    case Err(e) => Err(e)
    case Ok(m) => Ok(if Truthy(m) then StringOf(m.value) else "Unknown error")
  }

  /** `/login required|cookies expired|invalid/i.test(message)`, as written. */
  predicate ClearsAsWritten(message: string) {
    || ContainsIgnoreCase(message, "login required")
    || ContainsIgnoreCase(message, "cookies expired")
    || ContainsIgnoreCase(message, "invalid")
  }

  /** The rule that also accepts the scraper's own spelling: `cookies[ _]expired`. */
  predicate Clears(message: string) {
    ClearsAsWritten(message) || ContainsIgnoreCase(message, "cookies_expired")
  }

  /** The error handler as written: the message it shows and whether it clears the
      saved cookies. */
  function OnError(payload: Json): (r: Result<(string, bool), TypeError>)
    ensures r.Err? <==> payload == JNull
    ensures r.Ok? ==> ErrorMessage(payload) == Ok(r.value.0)
    ensures r.Ok? ==> r.value.1 == ClearsAsWritten(r.value.0)
  {
    match ErrorMessage(payload)
    case Err(e) => Err(e)
    case Ok(m) => Ok((m, ClearsAsWritten(m)))
  }

  /** The error handler with the corrected clearing rule. */
  function OnErrorFixed(payload: Json): (r: Result<(string, bool), TypeError>)
    ensures r.Err? <==> payload == JNull
    ensures r.Ok? ==> ErrorMessage(payload) == Ok(r.value.0)
    ensures r.Ok? ==> r.value.1 == Clears(r.value.0)
  {
    match ErrorMessage(payload)
    case Err(e) => Err(e)
    case Ok(m) => Ok((m, Clears(m)))
  }

  /** The corrected handler shows the same message and clears the cookies whenever the
      handler as written does. */
  lemma OnErrorFixedExtends(payload: Json)
    ensures OnError(payload).Err? <==> OnErrorFixed(payload).Err?
    ensures OnError(payload).Ok? ==>
      && OnErrorFixed(payload).value.0 == OnError(payload).value.0
      && (OnError(payload).value.1 ==> OnErrorFixed(payload).value.1)
  {
  }

  /** The payload the server's "error" event carries. */
  function ErrorPayload(message: string): Json {
    JObj(map["message" := JStr(message)])
  }

  /** The page shows the message the server's failure report carries, unchanged. */
  lemma ErrorMessageOfFailure(message: string)
    ensures ErrorMessage(ErrorPayload(Jobs.FailMessage(message))) == Ok(Jobs.FailMessage(message))
    ensures ErrorMessage(ErrorPayload("Canceled by user")) == Ok("Canceled by user")
  {
  }

  /** A pattern whose first two characters never appear together in `m` does not occur in it. */
  lemma NoOccurrence(m: string, pat: string)
    requires |pat| >= 2
    requires forall i :: 0 <= i < |m| - 1 ==> m[i] != pat[0] || m[i + 1] != pat[1]
    ensures !Contains(m, pat)
  {
    forall i | 0 <= i <= |m| - |pat| ensures !OccursAt(m, pat, i) {
      assert m[i] != pat[0] || m[i + 1] != pat[1];
    }
  }

  /** Neither "login required" nor "invalid" starts with a pair of adjacent characters
      of "cookies_expired", so neither occurs in it. */
  lemma NoPairMatch(m: string, pat: string)
    requires m == "cookies_expired" && (pat == "login required" || pat == "invalid")
    ensures !Contains(m, Lower(pat))
  {
    assert Lower(pat) == pat;
    NoOccurrence(m, pat);
  }

  lemma NoCookiesExpired(m: string)
    requires m == "cookies_expired"
    ensures !Contains(m, Lower("cookies expired"))
  {
    var pat := "cookies expired";
    assert Lower(pat) == pat;
    forall i | 0 <= i <= |m| - |pat| ensures !OccursAt(m, pat, i) {
      assert m[7] != pat[7];
    }
  }

  /** The message a failed login check produces, "COOKIES_EXPIRED", matches none of the
      rule's alternatives as written: the saved cookies stay. */
  lemma ExpiredLoginKeepsCookiesAsWritten()
    ensures !ClearsAsWritten(Scraper.CookiesExpired)
  {
    var m := Lower(Scraper.CookiesExpired);
    assert m == "cookies_expired";
    NoPairMatch(m, "login required");
    NoCookiesExpired(m);
    NoPairMatch(m, "invalid");
  }

  /** When the server relays a failed login check, the page as written shows
      "COOKIES_EXPIRED" and keeps the saved cookies. */
  lemma ExpiredLoginOnPageAsWritten()
    ensures OnError(ErrorPayload(Jobs.FailMessage(Scraper.CookiesExpired))) == Ok((Scraper.CookiesExpired, false))
  {
    ErrorMessageOfFailure(Scraper.CookiesExpired);
    ExpiredLoginKeepsCookiesAsWritten();
  }

  /** With the corrected rule the same failure clears the saved cookies, and every
      message the rule as written accepts is still accepted. */
  lemma ExpiredLoginClearsCookies(message: string)
    ensures Clears(Scraper.CookiesExpired)
    ensures OnErrorFixed(ErrorPayload(Jobs.FailMessage(Scraper.CookiesExpired))) == Ok((Scraper.CookiesExpired, true))
    ensures ClearsAsWritten(message) ==> Clears(message)
  {
    var m := Lower(Scraper.CookiesExpired);
    assert m == "cookies_expired";
    assert Lower("cookies_expired") == m;
    assert OccursAt(m, m, 0);
  }
}

=== FILE: csv.dfy ===
/** The CSV the scraper returns: the header `postUser,postPhones`, then one record
    per row, records separated by a line feed and no line break after the last.
    Every field is enclosed in double quotes with each embedded quote doubled, as
    in section 2 rule 7 of RFC 4180. A decoder for that format is given as the
    partner of the encoder. */
module Csv {
  import opened Wrappers
  import opened Text
  import opened Extraction

  const Header: string := "postUser,postPhones\n"

  /** `field.replace(/"/g, '""')`. */
  function Escape(f: string): (r: string)
    ensures |r| >= |f|
  {
    if f == [] then []
    else if f[0] == '"' then "\"\"" + Escape(f[1..])
    else [f[0]] + Escape(f[1..])
  }

  function Quote(f: string): string {
    "\"" + Escape(f) + "\""
  }

  function Record(row: Row): string {
    Quote(row.postUser) + "," + Quote(PostPhones(row))
  }

  function Records(rows: seq<Row>): (r: seq<string>)
    ensures |r| == |rows|
  {
    if rows == [] then [] else [Record(rows[0])] + Records(rows[1..])
  }

  /** The whole file for the given rows. */
  function BuildCsv(rows: seq<Row>): (csv: string)
    ensures |csv| >= |Header| && csv[..|Header|] == Header
  {
    Header + Join(Records(rows), "\n")
  }

  /** With no rows the file is the header alone. */
  lemma EmptyCsv()
    ensures BuildCsv([]) == Header
  {
  }

  // ---- Decoding ----

  /** Reads the body of a quoted field (after its opening quote) up to and including its
      closing quote; a doubled quote stands for one quote. Returns the field and what
      follows it. */
  function ParseQuoted(s: string): (r: Option<(string, string)>)
    ensures r.Some? ==> |r.value.1| < |s|
  {
    if s == [] then None
    else if s[0] == '"' then
      if |s| >= 2 && s[1] == '"' then
        match ParseQuoted(s[2..])
        case None => None
        case Some((f, rest)) => Some(("\"" + f, rest))
      else Some(([], s[1..]))
    else
      match ParseQuoted(s[1..])
      case None => None
      case Some((f, rest)) => Some(([s[0]] + f, rest))
  }

  /** Reads one quoted field. */
  function ParseField(s: string): (r: Option<(string, string)>)
    ensures r.Some? ==> |r.value.1| < |s|
  {
    if s != [] && s[0] == '"' then ParseQuoted(s[1..]) else None
  }

  /** Reads one record of two quoted fields separated by a comma. */
  function ParseRecord(s: string): (r: Option<((string, string), string)>)
    ensures r.Some? ==> |r.value.1| < |s|
  {
    match ParseField(s)
    case None => None
    case Some((a, rest)) =>
      if rest != [] && rest[0] == ',' then
        match ParseField(rest[1..])
        case None => None
        case Some((b, rest2)) => Some(((a, b), rest2))
      else None
  }

  /** Reads records separated by line feeds up to the end of the input. */
  function ParseRecords(s: string): Option<seq<(string, string)>>
    decreases |s|
  {
    match ParseRecord(s)
    case None => None
    case Some((rec, rest)) =>
      if rest == [] then Some([rec])
      else if rest[0] == '\n' then
        match ParseRecords(rest[1..])
        case None => None
        case Some(recs) => Some([rec] + recs)
      else None
  }

  /** Reads a file: the header, then no record at all or records up to the end. */
  function ParseCsv(s: string): Option<seq<(string, string)>> {
    if |s| < |Header| || s[..|Header|] != Header then None
    else if s[|Header|..] == [] then Some([])
    else ParseRecords(s[|Header|..])
  }

  /** The fields a row is written as. */
  function Fields(row: Row): (string, string) {
    (row.postUser, PostPhones(row))
  }

  function AllFields(rows: seq<Row>): (r: seq<(string, string)>)
    ensures |r| == |rows| && forall i :: 0 <= i < |rows| ==> r[i] == Fields(rows[i])
  {
    if rows == [] then [] else [Fields(rows[0])] + AllFields(rows[1..])
  }

  lemma {:induction false} ParseQuotedEscape(f: string, rest: string)
    requires rest == [] || rest[0] != '"'
    ensures ParseQuoted(Escape(f) + "\"" + rest) == Some((f, rest))
  {
    if f == [] {
      assert Escape(f) + "\"" + rest == ['"'] + rest;
    } else {
      ParseQuotedEscape(f[1..], rest);
      EscapeStep(f, rest);
    }
  }

  /** Unquoting the escaped form of a non-empty field takes one step past its escaped
      first character. */
  lemma EscapeStep(f: string, rest: string)
    requires f != [] && ParseQuoted(Escape(f[1..]) + "\"" + rest) == Some((f[1..], rest))
    ensures ParseQuoted(Escape(f) + "\"" + rest) == Some((f, rest))
  {
    var t := Escape(f[1..]) + "\"" + rest;
    EscapeCons(f, t, rest);
    if f[0] == '"' {
      ParseQuotedDoubled(t, f[1..], rest);
      assert "\"" + f[1..] == f;
    } else {
      ParseQuotedPlain(f[0], t, f[1..], rest);
      assert [f[0]] + f[1..] == f;
    }
  }

  lemma EscapeCons(f: string, t: string, rest: string)
    requires f != [] && t == Escape(f[1..]) + "\"" + rest
    ensures Escape(f) + "\"" + rest == (if f[0] == '"' then "\"\"" else [f[0]]) + t
  {
    var head := if f[0] == '"' then "\"\"" else [f[0]];
    assert Escape(f) == head + Escape(f[1..]);
  }

  /** A doubled quote in front of a field body adds one quote to the field. */
  lemma ParseQuotedDoubled(t: string, f: string, rest: string)
    requires ParseQuoted(t) == Some((f, rest))
    ensures ParseQuoted("\"\"" + t) == Some(("\"" + f, rest))
  {
    var u := "\"\"" + t;
    assert u[2..] == t;
  }

  /** Any other character in front of a field body is part of the field. */
  lemma ParseQuotedPlain(c: char, t: string, f: string, rest: string)
    requires c != '"' && ParseQuoted(t) == Some((f, rest))
    ensures ParseQuoted([c] + t) == Some(([c] + f, rest))
  {
    var u := [c] + t;
    assert u[1..] == t;
  }

  /** Unquoting recovers a quoted field exactly, whatever follows it, provided the
      next character is not a quote. */
  lemma ParseFieldQuote(f: string, rest: string)
    requires rest == [] || rest[0] != '"'
    ensures ParseField(Quote(f) + rest) == Some((f, rest))
  {
    ParseQuotedEscape(f, rest);
    assert Quote(f) + rest == "\"" + (Escape(f) + "\"" + rest);
  }

  lemma ParseRecordOf(row: Row, rest: string)
    requires rest == [] || rest[0] == '\n'
    ensures ParseRecord(Record(row) + rest) == Some((Fields(row), rest))
  {
    var a := Quote(row.postUser);
    var b := Quote(PostPhones(row));
    assert Record(row) + rest == a + ("," + b + rest);
    ParseFieldQuote(row.postUser, "," + b + rest);
    assert ("," + b + rest)[1..] == b + rest;
    ParseFieldQuote(PostPhones(row), rest);
  }

  lemma {:induction false} ParseRecordsOf(rows: seq<Row>)
    requires |rows| >= 1
    ensures ParseRecords(Join(Records(rows), "\n")) == Some(AllFields(rows))
  {
    var recs := Records(rows);
    if |rows| == 1 {
      assert Join(recs, "\n") == Record(rows[0]);
      ParseRecordOf(rows[0], []);
      assert Record(rows[0]) + [] == Record(rows[0]);
      assert rows[1..] == [];
      assert AllFields(rows) == [Fields(rows[0])];
    } else {
      var tail := rows[1..];
      var more := Join(Records(tail), "\n");
      assert Join(recs, "\n") == Record(rows[0]) + ("\n" + more);
      ParseRecordOf(rows[0], "\n" + more);
      assert ("\n" + more)[1..] == more;
      ParseRecordsOf(tail);
    }
  }

  /** Reading the file back yields each row's label and phone column, in row order:
      the quoting loses nothing, whatever the fields contain. */
  lemma ParseBuildCsv(rows: seq<Row>)
    ensures ParseCsv(BuildCsv(rows)) == Some(AllFields(rows))
  {
    var csv := BuildCsv(rows);
    assert csv[..|Header|] == Header;
    assert csv[|Header|..] == Join(Records(rows), "\n");
    if rows != [] {
      ParseRecordsOf(rows);
      var recs := Records(rows);
      assert recs[0] == Record(rows[0]) && |Record(rows[0])| > 0;
      assert |Join(recs, "\n")| >= |recs[0]|;
    }
  }
}

=== FILE: extraction.dfy ===
/** The per-post merge step of the scraper: posts read from the page are folded into
    the run's state (seen post ids, seen phone numbers, result rows and the phone
    counter). A post whose id was seen before contributes nothing; otherwise its
    id is recorded and, if it carries phone numbers not seen before, one row with
    exactly those numbers is appended. */
module Extraction {
  import opened Wrappers
  import opened Text
  import opened Seqs
  import opened Phones
  import opened Labels

  /** Posts are identified by the first 200 characters of their text. */
  const IdLength: nat := 200

  datatype Post = Post(id: string, user: string, text: string)

  /** The record a page read produces for one post (`{ id: text.slice(0, 200), user, text }`);
      `user` is the author label after its first cleanup. */
  function MakePost(rawUser: string, text: string): (p: Post)
    ensures |p.id| == if |text| < IdLength then |text| else IdLength
    ensures p.id == text[..|p.id|]
    ensures p.user != [] && p.text == text
  {
    Post(text[..if |text| < IdLength then |text| else IdLength], CleanLabel(rawUser), text)
  }

  /** Two posts whose texts agree on the first 200 characters get the same id. */
  lemma SamePrefixSameId(u1: string, t1: string, u2: string, t2: string)
    requires |t1| >= IdLength && |t2| >= IdLength && t1[..IdLength] == t2[..IdLength]
    ensures MakePost(u1, t1).id == MakePost(u2, t2).id
  {
  }

  /** A result row; `postPhones` is its numbers joined by ", ". */
  datatype Row = Row(postUser: string, phones: seq<string>)

  const PhoneSeparator: string := ", "

  function PostPhones(row: Row): string {
    Join(row.phones, PhoneSeparator)
  }

  datatype State = State(seenPosts: set<string>, seenPhones: set<string>, results: seq<Row>, totalPhones: int)

  const Start: State := State({}, {}, [], 0)

  function Elems(xs: seq<string>): set<string> {
    set x | x in xs
  }

  /** `phones.filter((p) => !seenPhones.has(p))`. */
  function NewPhones(phones: seq<string>, seen: set<string>): (r: seq<string>)
    ensures forall x :: x in r <==> x in phones && x !in seen
  {
    var r := Filter(phones, p => p !in seen);
    assert forall i :: 0 <= i < |phones| && phones[i] !in seen ==> phones[i] in r;
    r
  }

  /** One pass of the loop body over one post. */
  function MergePost(st: State, post: Post): (r: State)
    ensures post.id in st.seenPosts ==> r == st
    ensures |st.results| <= |r.results| <= |st.results| + 1
    ensures r.results[..|st.results|] == st.results
    ensures st.seenPosts <= r.seenPosts && st.seenPhones <= r.seenPhones
    ensures st.totalPhones <= r.totalPhones
  {
    if post.id in st.seenPosts then st
    else
      var marked := st.(seenPosts := st.seenPosts + {post.id});
      var phones := ExtractPhones(post.text);
      if phones == [] then marked
      else
        var novel := NewPhones(phones, st.seenPhones);
        var added := marked.(seenPhones := st.seenPhones + Elems(novel));
        if novel == [] then added
        else
          added.(totalPhones := st.totalPhones + |novel|,
                 results := st.results + [Row(CleanLabel(post.user), novel)])
  }

  /** The posts of one page read, in page order. Written on the last post. */
  function MergeBatch(st: State, posts: seq<Post>): (r: State)
    ensures |st.results| <= |r.results| && r.results[..|st.results|] == st.results
    ensures st.totalPhones <= r.totalPhones
  {
    if posts == [] then st
    else
      var mid := MergeBatch(st, posts[..|posts| - 1]);
      var r := MergePost(mid, posts[|posts| - 1]);
      assert r.results[..|st.results|] == mid.results[..|st.results|];
      r
  }

  /** Several page reads in a row. Written on the last batch. */
  function MergeAll(st: State, batches: seq<seq<Post>>): (r: State)
    ensures |st.results| <= |r.results| && r.results[..|st.results|] == st.results
    ensures st.totalPhones <= r.totalPhones
  {
    if batches == [] then st
    else
      var mid := MergeAll(st, batches[..|batches| - 1]);
      var r := MergeBatch(mid, batches[|batches| - 1]);
      assert r.results[..|st.results|] == mid.results[..|st.results|];
      r
  }

  /** All numbers of all rows, row after row. */
  function Flatten(rows: seq<Row>): seq<string> {
    if rows == [] then [] else Flatten(rows[..|rows| - 1]) + rows[|rows| - 1].phones
  }

  lemma FlattenSnoc(rows: seq<Row>, row: Row)
    ensures Flatten(rows + [row]) == Flatten(rows) + row.phones
  {
    assert (rows + [row])[..|rows|] == rows;
  }

  lemma {:induction false} FlattenHas(rows: seq<Row>, i: nat, k: nat)
    requires i < |rows| && k < |rows[i].phones|
    ensures rows[i].phones[k] in Flatten(rows)
  {
    if i < |rows| - 1 {
      FlattenHas(rows[..|rows| - 1], i, k);
    }
  }

  /** The state invariant: the rows hold every seen number exactly once, the counter
      counts them, every row has a label and at least one number, and every number
      is a well-formed extracted phone. */
  ghost predicate Inv(st: State) {
    var all := Flatten(st.results);
    && NoDup(all)
    && Elems(all) == st.seenPhones
    && st.totalPhones == |all|
    && (forall i :: 0 <= i < |st.results| ==> st.results[i].phones != [] && st.results[i].postUser != [])
    && (forall k :: 0 <= k < |all| ==> WellFormed(all[k]))
  }

  lemma StartInv()
    ensures Inv(Start)
  {
  }

  /** What one post does to the state. */
  lemma MergePostSpec(st: State, post: Post)
    ensures var r := MergePost(st, post);
      && (post.id !in st.seenPosts ==> r.seenPosts == st.seenPosts + {post.id})
      && (post.id !in st.seenPosts ==> r.seenPhones == st.seenPhones + Elems(ExtractPhones(post.text)))
      && (|r.results| == |st.results| + 1 <==>
            post.id !in st.seenPosts && exists x :: x in ExtractPhones(post.text) && x !in st.seenPhones)
  {
    var phones := ExtractPhones(post.text);
    if post.id !in st.seenPosts && phones != [] {
      var novel := NewPhones(phones, st.seenPhones);
      assert st.seenPhones + Elems(novel) == st.seenPhones + Elems(phones);
      if novel == [] {
        assert forall x :: x in phones ==> x in st.seenPhones;
      } else {
        assert novel[0] in phones && novel[0] !in st.seenPhones;
      }
    }
  }

  /** The row a post appends: its cleaned label, and exactly its numbers not seen
      before, each once, in extraction order; the counter grows by their number. */
  lemma MergePostRow(st: State, post: Post)
    requires |MergePost(st, post).results| == |st.results| + 1
    ensures var r := MergePost(st, post);
      var row := r.results[|st.results|];
      var phones := ExtractPhones(post.text);
      && row.postUser == CleanLabel(post.user)
      && (forall x :: x in row.phones <==> x in phones && x !in st.seenPhones)
      && NoDup(row.phones)
      && (forall i, j :: 0 <= i < j < |row.phones| ==> IndexOf(phones, row.phones[i]) < IndexOf(phones, row.phones[j]))
      && r.totalPhones == st.totalPhones + |row.phones|
  {
    var phones := ExtractPhones(post.text);
    FilterNoDup(phones, p => p !in st.seenPhones);
    FilterKeepsOrder(phones, p => p !in st.seenPhones);
  }

  /** Appending a row of distinct numbers, none seen before and each well formed,
      keeps the invariant. */
  lemma InvAppendRow(st: State, row: Row, seenPosts: set<string>)
    requires Inv(st)
    requires row.phones != [] && row.postUser != [] && NoDup(row.phones)
    requires forall j :: 0 <= j < |row.phones| ==> row.phones[j] !in st.seenPhones && WellFormed(row.phones[j])
    ensures Inv(State(seenPosts, st.seenPhones + Elems(row.phones), st.results + [row], st.totalPhones + |row.phones|))
  {
    var all := Flatten(st.results);
    FlattenSnoc(st.results, row);
    NoDupAppend(all, row.phones);
    assert Elems(all + row.phones) == Elems(all) + Elems(row.phones);
    forall k | 0 <= k < |all + row.phones| ensures WellFormed((all + row.phones)[k]) {
      if k >= |all| {
        assert (all + row.phones)[k] == row.phones[k - |all|];
      }
    }
  }

  /** Merging a post keeps the invariant. */
  lemma MergePostInv(st: State, post: Post)
    requires Inv(st)
    ensures Inv(MergePost(st, post))
  {
    if post.id !in st.seenPosts && ExtractPhones(post.text) != [] {
      var phones := ExtractPhones(post.text);
      var novel := NewPhones(phones, st.seenPhones);
      if novel == [] {
        assert Elems(novel) == {};
      } else {
        FilterNoDup(phones, p => p !in st.seenPhones);
        ExtractedAreWellFormed(post.text);
        forall j | 0 <= j < |novel| ensures novel[j] !in st.seenPhones && WellFormed(novel[j]) {
          assert novel[j] in phones;
        }
        InvAppendRow(st, Row(CleanLabel(post.user), novel), st.seenPosts + {post.id});
      }
    }
  }

  lemma {:induction false} MergeBatchInv(st: State, posts: seq<Post>)
    requires Inv(st)
    ensures Inv(MergeBatch(st, posts))
  {
    if posts != [] {
      MergeBatchInv(st, posts[..|posts| - 1]);
      MergePostInv(MergeBatch(st, posts[..|posts| - 1]), posts[|posts| - 1]);
    }
  }

  lemma {:induction false} MergeAllInv(st: State, batches: seq<seq<Post>>)
    requires Inv(st)
    ensures Inv(MergeAll(st, batches))
  {
    if batches != [] {
      MergeAllInv(st, batches[..|batches| - 1]);
      MergeBatchInv(MergeAll(st, batches[..|batches| - 1]), batches[|batches| - 1]);
    }
  }

  /** The counter equals the number of distinct numbers seen. */
  lemma TotalIsSeenCount(st: State)
    requires Inv(st)
    ensures st.totalPhones == |st.seenPhones|
  {
    NoDupCard(Flatten(st.results));
  }

  /** No number appears in two rows, nor twice in one row. */
  lemma RowsDisjoint(st: State)
    requires Inv(st)
    ensures forall i, j, a, b ::
              0 <= i < j < |st.results| && 0 <= a < |st.results[i].phones| && 0 <= b < |st.results[j].phones|
              ==> st.results[i].phones[a] != st.results[j].phones[b]
    ensures forall i :: 0 <= i < |st.results| ==> NoDup(st.results[i].phones)
  {
    RowsDisjointOf(st.results);
  }

  lemma {:induction false} RowsDisjointOf(rows: seq<Row>)
    requires NoDup(Flatten(rows))
    ensures forall i, j, a, b ::
              0 <= i < j < |rows| && 0 <= a < |rows[i].phones| && 0 <= b < |rows[j].phones|
              ==> rows[i].phones[a] != rows[j].phones[b]
    ensures forall i :: 0 <= i < |rows| ==> NoDup(rows[i].phones)
  {
    if rows != [] {
      var init := rows[..|rows| - 1];
      var last := rows[|rows| - 1];
      var fi := Flatten(init);
      assert Flatten(rows) == fi + last.phones;
      assert NoDup(fi) by {
        forall p, q | 0 <= p < q < |fi| ensures fi[p] != fi[q] {
          assert fi[p] == Flatten(rows)[p] && fi[q] == Flatten(rows)[q];
        }
      }
      assert NoDup(last.phones) by {
        forall p, q | 0 <= p < q < |last.phones| ensures last.phones[p] != last.phones[q] {
          assert last.phones[p] == Flatten(rows)[|fi| + p] && last.phones[q] == Flatten(rows)[|fi| + q];
        }
      }
      RowsDisjointOf(init);
      forall i, a, b | 0 <= i < |init| && 0 <= a < |init[i].phones| && 0 <= b < |last.phones|
        ensures init[i].phones[a] != last.phones[b]
      {
        FlattenHas(init, i, a);
        var p := IndexOf(fi, init[i].phones[a]);
        assert Flatten(rows)[p] == init[i].phones[a];
        assert Flatten(rows)[|fi| + b] == last.phones[b];
      }
    }
  }

  /** The phone column of every row splits back into the row's numbers: numbers are
      digits with at most a leading `+`, so they never contain the separator. */
  lemma PostPhonesSplit(st: State, i: nat)
    requires Inv(st) && i < |st.results|
    ensures Split(PostPhones(st.results[i]), PhoneSeparator) == st.results[i].phones
  {
    var row := st.results[i];
    forall k | 0 <= k < |row.phones| ensures PhoneSeparator[0] !in row.phones[k] {
      FlattenHas(st.results, i, k);
      var all := Flatten(st.results);
      var p := IndexOf(all, row.phones[k]);
      assert WellFormed(all[p]);
    }
    SplitJoin(row.phones, PhoneSeparator);
  }
}

=== FILE: job_lemmas.dfy ===
/** Properties of the job store: the invariant holds from the empty store through
    every transition, and what each request and background report promises. */
module JobLemmas {
  import opened Wrappers
  import opened Json
  import opened Jobs

  // ---- Invariant preservation, one transition at a time ----

  /** Adding tasks never invalidates a stream record. */
  lemma SubOkMoreTasks(sub: Sub, log: seq<Emitted>, n: nat, m: nat)
    requires SubOk(sub, log, n) && n <= m
    ensures SubOk(sub, log, m)
  {
  }

  lemma CreateInv(st: Store, body: Json, now: nat)
    requires Inv(st)
    ensures Inv(Create(st, body, now).0)
  {
    if CheckBody(body) == Ok(true) {
      var id := FreshId(st, now);
      var r := AddJob(st, id);
      assert id !in st.jobs;
      forall i | 0 <= i < |r.subs| ensures SubOk(r.subs[i], r.log, |r.tasks|) {
        SubOkMoreTasks(st.subs[i], st.log, |st.tasks|, |r.tasks|);
      }
      forall t | 0 <= t < |r.tasks| && r.tasks[t].running && r.tasks[t].id in r.jobs
        ensures r.jobs[r.tasks[t].id].status == Running
      {
        if t < |st.tasks| {
          assert r.tasks[t] == st.tasks[t];
        }
      }
    }
  }

  /** What a finishing task (complete or fail) does to the job record, before it emits. */
  lemma FinishInv(st: Store, t: nat, job: Job, r: Store)
    requires Inv(st) && t < |st.tasks| && st.tasks[t].running
    requires job.status != Canceled && (job.data.Some? <==> job.status == Done) && job.bus == t
    requires var id := st.tasks[t].id;
      && r.tasks == st.tasks[t := Task(id, false)]
      && r.jobs == (if id in st.jobs then st.jobs[id := job] else st.jobs)
      && r.subs == st.subs && r.log == st.log && r.lastId == st.lastId
    ensures Inv(r)
  {
    var id := st.tasks[t].id;
    forall u | 0 <= u < |r.tasks| && r.tasks[u].running && r.tasks[u].id in r.jobs
      ensures r.jobs[r.tasks[u].id].status == Running
    {
      assert u != t;
      assert st.tasks[u].id != id;
    }
    forall k | k in r.jobs
      ensures k <= r.lastId && r.jobs[k].bus < |r.tasks| && r.tasks[r.jobs[k].bus].id == k
    {
      if k == id {
        BusOfTask(st, t);
      }
    }
  }

  lemma CompleteInv(st: Store, t: nat, csv: string, fileName: string)
    requires Inv(st)
    ensures Inv(Complete(st, t, csv, fileName))
  {
    if t < |st.tasks| && st.tasks[t].running {
      var id := st.tasks[t].id;
      var jobs := if id in st.jobs
        then st.jobs[id := st.jobs[id].(data := Some(csv), fileName := Some(fileName), status := Done)]
        else st.jobs;
      var mid := st.(jobs := jobs, tasks := st.tasks[t := Task(id, false)]);
      if id in st.jobs {
        BusOfTask(st, t);
        FinishInv(st, t, st.jobs[id].(data := Some(csv), fileName := Some(fileName), status := Done), mid);
      } else {
        FinishInv(st, t, Job(Done, Some(csv), Some(fileName), t), mid);
      }
      EmitOk(mid, t, DoneEv("/download/" + Text.IntToString(id), fileName));
    }
  }

  /** A stored job is recorded under the task that created it. */
  lemma BusOfTask(st: Store, t: nat)
    requires Inv(st) && t < |st.tasks| && st.tasks[t].id in st.jobs
    ensures st.jobs[st.tasks[t].id].bus == t
  {
  }

  lemma FailInv(st: Store, t: nat, message: string)
    requires Inv(st)
    ensures Inv(Fail(st, t, message).0)
  {
    if t < |st.tasks| && st.tasks[t].running {
      var id := st.tasks[t].id;
      var jobs := if id in st.jobs then st.jobs[id := st.jobs[id].(status := Failed)] else st.jobs;
      var mid := st.(jobs := jobs, tasks := st.tasks[t := Task(id, false)]);
      if id in st.jobs {
        BusOfTask(st, t);
        FinishInv(st, t, st.jobs[id].(status := Failed), mid);
      } else {
        FinishInv(st, t, Job(Failed, None, None, t), mid);
      }
      if HasErrorListener(mid, t) {
        EmitOk(mid, t, ErrorEv(FailMessage(message)));
      }
    }
  }

  lemma PublishInv(st: Store, t: nat, ev: Event)
    requires Inv(st)
    ensures Inv(Publish(st, t, ev))
  {
    if t < |st.tasks| && st.tasks[t].running && (ev.ProgressEv? || ev.LogEv?) {
      EmitOk(st, t, ev);
    }
  }

  lemma SubscribeInv(st: Store, id: nat)
    requires Inv(st)
    ensures Inv(Subscribe(st, id).0)
  {
    if id in st.jobs {
      var r := Subscribe(st, id).0;
      var sub := r.subs[|st.subs|];
      assert st.log[|st.log|..|st.log|] == [];
      assert SubOk(sub, r.log, |r.tasks|);
    }
  }

  lemma DisconnectInv(st: Store, s: nat)
    requires Inv(st)
    ensures Inv(Disconnect(st, s))
  {
  }

  lemma DownloadInv(st: Store, id: nat)
    requires Inv(st)
    ensures Inv(Download(st, id).0)
  {
  }

  lemma CancelInv(st: Store, id: nat)
    requires Inv(st)
    ensures Inv(Cancel(st, id).0)
  {
    if id in st.jobs && HasErrorListener(st, st.jobs[id].bus) {
      EmitOk(st, st.jobs[id].bus, ErrorEv("Canceled by user"));
    }
  }

  lemma ExpireInv(st: Store, id: nat)
    requires Inv(st)
    ensures Inv(Expire(st, id))
  {
  }

  /** Every transition keeps the invariant: from the empty store on, stored jobs are never
      "canceled", hold data exactly when done, and every stream was sent exactly its
      info frame and the events of its window. */
  lemma StepInv(st: Store, op: Op)
    requires Inv(st)
    ensures Inv(Step(st, op))
  {
    match op
    case CreateOp(body, now) => CreateInv(st, body, now);
    case CompleteOp(t, csv, name) => CompleteInv(st, t, csv, name);
    case FailOp(t, msg) => FailInv(st, t, msg);
    case PublishOp(t, ev) => PublishInv(st, t, ev);
    case SubscribeOp(id) => SubscribeInv(st, id);
    case DisconnectOp(s) => DisconnectInv(st, s);
    case DownloadOp(id) => DownloadInv(st, id);
    case CancelOp(id) => CancelInv(st, id);
    case ExpireOp(id) => ExpireInv(st, id);
  }

  /** A run of transitions from the empty store. */
  function Run(ops: seq<Op>): Store {
    if ops == [] then Empty else Step(Run(ops[..|ops| - 1]), ops[|ops| - 1])
  }

  lemma {:induction false} RunInv(ops: seq<Op>)
    ensures Inv(Run(ops))
  {
    if ops == [] {
      EmptyInv();
    } else {
      RunInv(ops[..|ops| - 1]);
      StepInv(Run(ops[..|ops| - 1]), ops[|ops| - 1]);
    }
  }

  // ---- What the requests promise ----

  /** A create is accepted exactly when `groupUrl` is a non-empty string, fails with a
      server error exactly when the body is null, and otherwise leaves the store alone.
      An accepted job is new, running, without data, and no stored job changes. */
  lemma CreateSpec(st: Store, body: Json, now: nat)
    requires Inv(st)
    ensures var r := Create(st, body, now).0;
      var resp := Create(st, body, now).1;
      && (resp.JobCreated? <==>
            body.JObj? && "groupUrl" in body.fields && body.fields["groupUrl"].JStr? && body.fields["groupUrl"].s != [])
      && (resp.ServerError? <==> body == JNull)
      && (resp.BadRequest? ==> resp.error == "Valid groupUrl is required")
      && (!resp.JobCreated? ==> r == st)
      && (resp.JobCreated? ==>
            && resp.jobId !in st.jobs && resp.jobId in r.jobs
            && r.jobs[resp.jobId].status == Running && r.jobs[resp.jobId].data.None?
            && (forall id :: id in st.jobs ==> id in r.jobs && r.jobs[id] == st.jobs[id])
            && (now > st.lastId ==> resp.jobId == now))
  {
  }

  /** Once a job's task has finished, the job can be downloaded: the file is the CSV the
      task returned, named as the task named it (or after the id when that name is empty). */
  lemma CompleteThenDownload(st: Store, t: nat, csv: string, fileName: string)
    requires Inv(st) && t < |st.tasks| && st.tasks[t].running && st.tasks[t].id in st.jobs
    requires csv != []
    ensures var id := st.tasks[t].id;
      Download(Complete(st, t, csv, fileName), id).1 ==
        File(csv, if fileName != [] then fileName else "facebook_group_" + Text.IntToString(id) + ".csv")
  {
  }

  /** A job that is not done answers a download with 400 "Data not ready yet". */
  lemma NotDoneNotReady(st: Store, id: nat)
    requires Inv(st) && id in st.jobs && st.jobs[id].status != Done
    ensures Download(st, id) == (st, BadRequest("Data not ready yet"))
  {
  }

  /** A failed task leaves its job failed, so a download is refused. */
  lemma FailThenNoDownload(st: Store, t: nat, message: string)
    requires Inv(st) && t < |st.tasks| && st.tasks[t].running && st.tasks[t].id in st.jobs
    ensures var r := Fail(st, t, message).0;
      var id := st.tasks[t].id;
      id in r.jobs && r.jobs[id].status == Failed && Download(r, id).1 == BadRequest("Data not ready yet")
  {
    FailInv(st, t, message);
    var r := Fail(st, t, message).0;
    NotDoneNotReady(r, st.tasks[t].id);
  }

  /** Downloading twice answers the same both times; only the removal timers add up. */
  lemma DownloadRepeat(st: Store, id: nat)
    ensures var (r1, a) := Download(st, id);
      var (r2, b) := Download(r1, id);
      a == b && r2.jobs == st.jobs && r2.timers == st.timers + (if a.File? then multiset{id, id} else multiset{})
  {
  }

  /** A cancel of a stored job succeeds and removes just that job; a second cancel finds
      nothing. */
  lemma CancelTwice(st: Store, id: nat)
    requires id in st.jobs
    ensures var r := Cancel(st, id).0;
      && Cancel(st, id).1 == CancelOk
      && r.jobs == st.jobs - {id}
      && Cancel(r, id) == (r, NotFound("Unknown job"))
  {
  }

  /** A stream can be opened exactly for a stored job; it starts with that job's status. */
  lemma SubscribeSpec(st: Store, id: nat)
    ensures var (r, resp) := Subscribe(st, id);
      && (resp.NotFound? <==> id !in st.jobs)
      && (resp.NotFound? ==> r == st && resp.error == "Unknown job ID")
      && (id in st.jobs ==>
            && resp == Stream(|st.subs|) && |r.subs| == |st.subs| + 1
            && r.subs[|st.subs|].frames == [InfoFrame(st.jobs[id].status)]
            && r.subs[..|st.subs|] == st.subs && r.jobs == st.jobs)
  {
  }

  /** A stream opened on a running job whose task then finishes is sent the status and
      then the download link, in that order. */
  lemma SubscribeThenDone(st: Store, id: nat, csv: string, fileName: string)
    requires Inv(st) && id in st.jobs && st.tasks[st.jobs[id].bus].running
    ensures var s1 := Subscribe(st, id).0;
      var t := st.jobs[id].bus;
      var k := |st.subs|;
      Complete(s1, t, csv, fileName).subs[k].frames ==
        [InfoFrame(Running), EventFrame(DoneEv("/download/" + Text.IntToString(id), fileName))]
  {
  }

  // ---- Statuses and ids ----

  /** A stored job that is done or failed never changes again while it is stored. */
  lemma StatusFinal(st: Store, op: Op, id: nat)
    requires Inv(st) && id in st.jobs && st.jobs[id].status != Running
    ensures var r := Step(st, op);
      id in r.jobs ==> r.jobs[id] == st.jobs[id]
  {
    match op
    case CompleteOp(t, _, _) =>
      if t < |st.tasks| && st.tasks[t].running {
        assert st.tasks[t].id != id;
      }
    case FailOp(t, _) =>
      if t < |st.tasks| && st.tasks[t].running {
        assert st.tasks[t].id != id;
      }
    case _ =>
  }

  /** An id that was issued and is no longer stored never comes back. */
  lemma GoneStaysGone(st: Store, op: Op, id: nat)
    requires Inv(st) && id <= st.lastId && id !in st.jobs
    ensures id !in Step(st, op).jobs && id <= Step(st, op).lastId
  {
  }

  // ---- Streams ----

  /** Every frame relayed from a window is an emission on that emitter within it. */
  lemma {:induction false} RelayedFromLog(w: seq<Emitted>, bus: nat)
    ensures forall f :: f in Relayed(w, bus) ==>
      exists k :: 0 <= k < |w| && w[k].bus == bus && f == EventFrame(w[k].ev)
  {
    if w != [] {
      var prior := w[..|w| - 1];
      RelayedFromLog(prior, bus);
      forall f | f in Relayed(w, bus)
        ensures exists k :: 0 <= k < |w| && w[k].bus == bus && f == EventFrame(w[k].ev)
      {
        if f in Relayed(prior, bus) {
          var k :| 0 <= k < |prior| && prior[k].bus == bus && f == EventFrame(prior[k].ev);
          assert w[k] == prior[k];
        } else {
          assert w[|w| - 1].bus == bus && f == EventFrame(w[|w| - 1].ev);
        }
      }
    }
  }

  /** A stream is relayed at most one "done" and at most one "error" event. */
  lemma {:induction false} RelayedOnce(w: seq<Emitted>, bus: nat)
    ensures forall i, j :: 0 <= i < j < |Relayed(w, bus)| && Relayed(w, bus)[i].EventFrame? && Relayed(w, bus)[j].EventFrame? ==>
      !(Relayed(w, bus)[i].ev.DoneEv? && Relayed(w, bus)[j].ev.DoneEv?) &&
      !(Relayed(w, bus)[i].ev.ErrorEv? && Relayed(w, bus)[j].ev.ErrorEv?)
  {
    if w != [] {
      var prior := w[..|w| - 1];
      var e := w[|w| - 1];
      var a := Relayed(prior, bus);
      var r := Relayed(w, bus);
      RelayedOnce(prior, bus);
      RelayedFromLog(prior, bus);
      forall i, j | 0 <= i < j < |r| && r[i].EventFrame? && r[j].EventFrame?
        ensures !(r[i].ev.DoneEv? && r[j].ev.DoneEv?) && !(r[i].ev.ErrorEv? && r[j].ev.ErrorEv?)
      {
        if j >= |a| {
          assert r[j] == EventFrame(e.ev) && e.bus == bus && Passes(prior, bus, e.ev);
          assert r[i] == a[i] && a[i] in a;
          var k :| 0 <= k < |prior| && prior[k].bus == bus && a[i] == EventFrame(prior[k].ev);
          if r[i].ev.DoneEv? {
            assert SeenDone(prior, bus);
          }
          if r[i].ev.ErrorEv? {
            assert SeenError(prior, bus);
          }
        } else {
          assert r[i] == a[i] && r[j] == a[j];
        }
      }
    }
  }

  /** In a consistent store every stream's frames open with its info frame, then carry at
      most one "done" and at most one "error". */
  lemma StreamFrames(st: Store, s: nat)
    requires Inv(st) && s < |st.subs|
    ensures var f := st.subs[s].frames;
      && f != [] && f[0] == InfoFrame(st.subs[s].info)
      && (forall i :: 1 <= i < |f| ==> f[i].EventFrame?)
      && (forall i, j :: 1 <= i < j < |f| ==> !(f[i].ev.DoneEv? && f[j].ev.DoneEv?) && !(f[i].ev.ErrorEv? && f[j].ev.ErrorEv?))
  {
    var sub := st.subs[s];
    var w := st.log[sub.joinedAt..WindowEnd(sub, st.log)];
    var rel := Relayed(w, sub.bus);
    RelayedOnce(w, sub.bus);
    RelayedFromLog(w, sub.bus);
    var f := sub.frames;
    assert f == [InfoFrame(sub.info)] + rel;
    forall i | 1 <= i < |f| ensures f[i].EventFrame? {
      assert f[i] == rel[i - 1] && rel[i - 1] in rel;
    }
    forall i, j | 1 <= i < j < |f|
      ensures !(f[i].ev.DoneEv? && f[j].ev.DoneEv?) && !(f[i].ev.ErrorEv? && f[j].ev.ErrorEv?)
    {
      assert f[i] == rel[i - 1] && f[j] == rel[j - 1];
      assert rel[i - 1] in rel && rel[j - 1] in rel;
    }
  }

  /** A closed stream is sent nothing more, whatever happens next. */
  lemma ClosedStreamFrozen(st: Store, op: Op, s: nat)
    requires s < |st.subs| && st.subs[s].leftAt.Some?
    ensures s < |Step(st, op).subs| && Step(st, op).subs[s] == st.subs[s]
  {
  }

  /** A stream's frames only ever grow at the end: what it was sent before any step is
      a prefix of what it has been sent after. */
  lemma FramesGrow(st: Store, op: Op, s: nat)
    requires s < |st.subs|
    ensures s < |Step(st, op).subs| && st.subs[s].frames <= Step(st, op).subs[s].frames
  {
    forall sub: Sub, bus: nat, ev: Event ensures sub.frames <= Deliver(sub, bus, ev).frames {
      DeliverGrows(sub, bus, ev);
    }
  }

  lemma DeliverGrows(sub: Sub, bus: nat, ev: Event)
    ensures sub.frames <= Deliver(sub, bus, ev).frames
  {
  }

  // ---- The handlers as written, against the corrected ones ----

  /** A body the create handler accepts. */
  const SampleBody: Json := JObj(map["groupUrl" := JStr("g")])

  /** With no open stream listening for "error", cancel as written answers 500 and leaves
      the job stored as "canceled", outside the invariant; a repeated cancel answers 500
      again while no stream listens. */
  lemma CancelUnheardAsWritten(st: Store, id: nat)
    requires Inv(st) && id in st.jobs && !HasErrorListener(st, st.jobs[id].bus)
    ensures var r := CancelAsWritten(st, id).0;
      && CancelAsWritten(st, id).1 == ServerError
      && id in r.jobs && r.jobs[id].status == Canceled && !Inv(r)
      && CancelAsWritten(r, id).1 == ServerError
  {
    var job := st.jobs[id];
    var marked := st.(jobs := st.jobs[id := job.(status := Canceled)]);
    assert HasErrorListener(marked, job.bus) == HasErrorListener(st, job.bus);
  }

  /** The smallest case: create a job, open no stream, cancel it. */
  lemma CancelUnheardExample()
    ensures var st := Create(Empty, SampleBody, 1).0;
      CancelAsWritten(st, 1).1 == ServerError && Cancel(st, 1).1 == CancelOk
  {
    var st := Create(Empty, SampleBody, 1).0;
    EmptyInv();
    CreateInv(Empty, SampleBody, 1);
    CancelUnheardAsWritten(st, 1);
  }

  /** The corrected cancel always succeeds on a stored job and removes it. */
  lemma CancelFixed(st: Store, id: nat)
    requires Inv(st) && id in st.jobs
    ensures Cancel(st, id).1 == CancelOk && id !in Cancel(st, id).0.jobs && Inv(Cancel(st, id).0)
  {
    CancelInv(st, id);
  }

  /** When someone listens the two cancels agree. */
  lemma CancelAgrees(st: Store, id: nat)
    requires id in st.jobs && HasErrorListener(st, st.jobs[id].bus)
    ensures CancelAsWritten(st, id) == Cancel(st, id)
  {
    var job := st.jobs[id];
    var marked := st.(jobs := st.jobs[id := job.(status := Canceled)]);
    assert HasErrorListener(marked, job.bus) == HasErrorListener(st, job.bus);
    assert marked.jobs - {id} == st.jobs - {id};
  }

  /** Two creates in the same millisecond share an id: the second replaces the first
      job's record, the first task's results land on the second job, and the invariant
      breaks. A finished job caught this way can no longer be downloaded. */
  lemma CreateCollisionAsWritten(st: Store, body: Json, now: nat)
    requires Inv(st) && now in st.jobs && CheckBody(body) == Ok(true)
    ensures var r := CreateAsWritten(st, body, now).0;
      && CreateAsWritten(st, body, now).1 == JobCreated(now)
      && r.jobs[now].bus != st.jobs[now].bus && r.jobs[now].status == Running
      && !Inv(r)
      && (Download(st, now).1.File? ==> Download(r, now).1 == BadRequest("Data not ready yet"))
  {
    var r := CreateAsWritten(st, body, now).0;
    var b := st.jobs[now].bus;
    assert r.tasks[b].id == now && r.tasks[|st.tasks|].id == now;
  }

  /** The smallest case: two creates with the same clock reading leave one job and two tasks. */
  lemma CreateCollisionExample()
    ensures var r := CreateAsWritten(CreateAsWritten(Empty, SampleBody, 7).0, SampleBody, 7).0;
      r.jobs.Keys == {7} && |r.tasks| == 2 && r.tasks[0].id == r.tasks[1].id
  {
  }

  /** The corrected create never reuses an id, and agrees with the handler as written
      whenever the clock has moved past every earlier id. */
  lemma CreateAgrees(st: Store, body: Json, now: nat)
    requires now > st.lastId
    ensures CreateAsWritten(st, body, now) == Create(st, body, now)
  {
  }

  /** With no open stream listening for "error", a failing task's emit throws and its
      promise is rejected with nobody to catch it. */
  lemma FailUnheardAsWritten(st: Store, t: nat, message: string)
    requires t < |st.tasks| && st.tasks[t].running && !HasErrorListener(st, t)
    ensures FailAsWritten(st, t, message).1 == Unhandled
  {
    var id := st.tasks[t].id;
    var jobs := if id in st.jobs then st.jobs[id := st.jobs[id].(status := Failed)] else st.jobs;
    var marked := st.(jobs := jobs, tasks := st.tasks[t := Task(id, false)]);
    assert HasErrorListener(marked, t) == HasErrorListener(st, t);
  }

  /** The corrected failure report never throws, and agrees with the one as written
      whenever someone listens. */
  lemma FailFixed(st: Store, t: nat, message: string)
    ensures Fail(st, t, message).1 != Unhandled
    ensures HasErrorListener(st, t) ==> Fail(st, t, message) == FailAsWritten(st, t, message)
  {
    if t < |st.tasks| && st.tasks[t].running {
      var id := st.tasks[t].id;
      var jobs := if id in st.jobs then st.jobs[id := st.jobs[id].(status := Failed)] else st.jobs;
      var marked := st.(jobs := jobs, tasks := st.tasks[t := Task(id, false)]);
      assert HasErrorListener(marked, t) == HasErrorListener(st, t);
    }
  }
}

=== FILE: jobs.dfy ===
/** The server's job store as a state machine.

    A job id maps to a record with a status, the CSV once it is ready, and the
    job's event emitter. Emitters live on after their job is removed, so they are
    kept apart from the map and numbered: emitter `b` belongs to background task
    `b`. Every emission is appended to a global log; each event-stream subscriber
    records the frames it was sent, the log position where it joined, and the log
    position where it left.

    Node's event emitter throws when "error" is emitted with nobody listening for
    it; the transitions report that outcome rather than assume a listener. */
module Jobs {
  import opened Wrappers
  import opened Text
  import opened Json
  import Scraper

  datatype Status = Running | Done | Failed | Canceled

  /** What an emitter carries. */
  datatype Event =
    | ProgressEv(progress: Scraper.Progress)
    | LogEv(msg: string)
    | DoneEv(downloadUrl: string, file: string)
    | ErrorEv(message: string)

  /** What a subscriber's stream is sent: the status when it joined, then events. */
  datatype Frame = InfoFrame(status: Status) | EventFrame(ev: Event)

  datatype Job = Job(status: Status, data: Option<string>, fileName: Option<string>, bus: nat)

  /** One open or closed event stream. `wantsDone` and `wantsError` say whether its
      one-shot "done" and "error" listeners are still attached. */
  datatype Sub = Sub(
    bus: nat,
    joinedAt: nat,
    leftAt: Option<nat>,
    info: Status,
    frames: seq<Frame>,
    wantsDone: bool,
    wantsError: bool)

  /** The background scrape started by a create; it reports on emitter `bus` = its index. */
  datatype Task = Task(id: nat, running: bool)

  datatype Emitted = Emitted(bus: nat, ev: Event)

  datatype Store = Store(
    jobs: map<nat, Job>,
    subs: seq<Sub>,
    tasks: seq<Task>,
    timers: multiset<nat>,
    log: seq<Emitted>,
    lastId: int)

  const Empty: Store := Store(map[], [], [], multiset{}, [], -1)

  datatype Response =
    | JobCreated(jobId: nat)
    | BadRequest(error: string)
    | NotFound(error: string)
    | ServerError
    | Stream(sub: nat)
    | File(data: string, name: string)
    | CancelOk

  // ---- Emitters ----

  /** Whether any open stream on `bus` still has its "error" listener. */
  predicate HasErrorListener(st: Store, bus: nat) {
    exists i :: 0 <= i < |st.subs| && st.subs[i].bus == bus && st.subs[i].leftAt.None? && st.subs[i].wantsError
  }

  /** What one listener set does with one emission. */
  function Deliver(sub: Sub, bus: nat, ev: Event): (r: Sub)
    ensures r.bus == sub.bus && r.joinedAt == sub.joinedAt && r.leftAt == sub.leftAt && r.info == sub.info
  {
    if sub.bus != bus || sub.leftAt.Some? then sub
    else match ev
      case DoneEv(_, _) =>
        if sub.wantsDone then sub.(frames := sub.frames + [EventFrame(ev)], wantsDone := false) else sub
      case ErrorEv(_) =>
        if sub.wantsError then sub.(frames := sub.frames + [EventFrame(ev)], wantsError := false) else sub
      case _ => sub.(frames := sub.frames + [EventFrame(ev)])
  }

  /** `emitter.emit(...)` on emitter `bus`. */
  function Emit(st: Store, bus: nat, ev: Event): (r: Store)
    ensures r.jobs == st.jobs && r.tasks == st.tasks && r.timers == st.timers && r.lastId == st.lastId
    ensures r.log == st.log + [Emitted(bus, ev)] && |r.subs| == |st.subs|
    ensures forall i :: 0 <= i < |st.subs| ==> r.subs[i] == Deliver(st.subs[i], bus, ev)
  {
    st.(subs := seq(|st.subs|, i requires 0 <= i < |st.subs| => Deliver(st.subs[i], bus, ev)),
        log := st.log + [Emitted(bus, ev)])
  }

  // ---- What a stream is sent, stated on the log ----

  ghost predicate SeenDone(w: seq<Emitted>, bus: nat) {
    exists k :: 0 <= k < |w| && w[k].bus == bus && w[k].ev.DoneEv?
  }

  ghost predicate SeenError(w: seq<Emitted>, bus: nat) {
    exists k :: 0 <= k < |w| && w[k].bus == bus && w[k].ev.ErrorEv?
  }

  /** Whether an emission on a stream's emitter reaches it, given what it saw before:
      "done" and "error" only the first time. */
  ghost predicate Passes(prior: seq<Emitted>, bus: nat, ev: Event) {
    match ev
    case DoneEv(_, _) => !SeenDone(prior, bus)
    case ErrorEv(_) => !SeenError(prior, bus)
    case _ => true
  }

  /** The frames a stream on `bus` receives from the emissions `w`, in emission order. */
  ghost function Relayed(w: seq<Emitted>, bus: nat): seq<Frame> {
    if w == [] then []
    else
      var prior := w[..|w| - 1];
      var e := w[|w| - 1];
      Relayed(prior, bus) + (if e.bus == bus && Passes(prior, bus, e.ev) then [EventFrame(e.ev)] else [])
  }

  /** Where a stream's window of the log ends. */
  function WindowEnd(sub: Sub, log: seq<Emitted>): nat {
    if sub.leftAt.Some? then sub.leftAt.value else |log|
  }

  /** A stream's record agrees with the log: it was sent its info frame and then exactly
      the emissions on its emitter between joining and leaving, each "done" and
      "error" only once. */
  ghost predicate SubOk(sub: Sub, log: seq<Emitted>, tasks: nat) {
    && sub.bus < tasks
    && sub.joinedAt <= WindowEnd(sub, log) <= |log|
    && var w := log[sub.joinedAt..WindowEnd(sub, log)];
       && sub.frames == [InfoFrame(sub.info)] + Relayed(w, sub.bus)
       && sub.wantsDone == !SeenDone(w, sub.bus)
       && sub.wantsError == !SeenError(w, sub.bus)
  }

  lemma RelayedSnoc(w: seq<Emitted>, e: Emitted, bus: nat)
    ensures Relayed(w + [e], bus) ==
      Relayed(w, bus) + (if e.bus == bus && Passes(w, bus, e.ev) then [EventFrame(e.ev)] else [])
    ensures SeenDone(w + [e], bus) <==> SeenDone(w, bus) || (e.bus == bus && e.ev.DoneEv?)
    ensures SeenError(w + [e], bus) <==> SeenError(w, bus) || (e.bus == bus && e.ev.ErrorEv?)
  {
    assert (w + [e])[..|w|] == w;
    if SeenDone(w, bus) {
      var k :| 0 <= k < |w| && w[k].bus == bus && w[k].ev.DoneEv?;
      assert (w + [e])[k] == w[k];
    }
    if SeenError(w, bus) {
      var k :| 0 <= k < |w| && w[k].bus == bus && w[k].ev.ErrorEv?;
      assert (w + [e])[k] == w[k];
    }
    if e.bus == bus && e.ev.DoneEv? {
      assert (w + [e])[|w|] == e;
    }
    if e.bus == bus && e.ev.ErrorEv? {
      assert (w + [e])[|w|] == e;
    }
  }

  /** Delivering an emission keeps a stream's record in step with the extended log. */
  lemma DeliverOk(sub: Sub, log: seq<Emitted>, tasks: nat, bus: nat, ev: Event)
    requires SubOk(sub, log, tasks)
    ensures SubOk(Deliver(sub, bus, ev), log + [Emitted(bus, ev)], tasks)
  {
    var log2 := log + [Emitted(bus, ev)];
    var w := log[sub.joinedAt..WindowEnd(sub, log)];
    if sub.leftAt.Some? {
      assert log2[sub.joinedAt..WindowEnd(sub, log2)] == w;
    } else {
      assert log2[sub.joinedAt..WindowEnd(sub, log2)] == w + [Emitted(bus, ev)];
      DeliverOpen(sub, w, Emitted(bus, ev));
    }
  }

  /** An open stream whose record matches the window `w` matches `w` extended by the
      next emission once that emission is delivered. */
  lemma DeliverOpen(sub: Sub, w: seq<Emitted>, e: Emitted)
    requires sub.leftAt.None?
    requires sub.frames == [InfoFrame(sub.info)] + Relayed(w, sub.bus)
    requires sub.wantsDone == !SeenDone(w, sub.bus) && sub.wantsError == !SeenError(w, sub.bus)
    ensures var d := Deliver(sub, e.bus, e.ev);
      && d.frames == [InfoFrame(sub.info)] + Relayed(w + [e], sub.bus)
      && d.wantsDone == !SeenDone(w + [e], sub.bus)
      && d.wantsError == !SeenError(w + [e], sub.bus)
  {
    RelayedSnoc(w, e, sub.bus);
    var extra := if e.bus == sub.bus && Passes(w, sub.bus, e.ev) then [EventFrame(e.ev)] else [];
    assert Deliver(sub, e.bus, e.ev).frames == sub.frames + extra;
    assert [InfoFrame(sub.info)] + Relayed(w, sub.bus) + extra == [InfoFrame(sub.info)] + (Relayed(w, sub.bus) + extra);
  }

  lemma EmitOk(st: Store, bus: nat, ev: Event)
    requires forall i :: 0 <= i < |st.subs| ==> SubOk(st.subs[i], st.log, |st.tasks|)
    ensures var r := Emit(st, bus, ev);
      forall i :: 0 <= i < |r.subs| ==> SubOk(r.subs[i], r.log, |r.tasks|)
  {
    forall i | 0 <= i < |st.subs|
      ensures SubOk(Deliver(st.subs[i], bus, ev), st.log + [Emitted(bus, ev)], |st.tasks|)
    {
      DeliverOk(st.subs[i], st.log, |st.tasks|, bus, ev);
    }
  }

  /** With a stream's record in step with the log, an open stream on `bus` still has
      its error listener exactly when no error reached it since it joined. */
  lemma ListenerMeansUnseen(st: Store, bus: nat, i: nat)
    requires i < |st.subs| && SubOk(st.subs[i], st.log, |st.tasks|)
    ensures st.subs[i].wantsError <==> !SeenError(st.log[st.subs[i].joinedAt..WindowEnd(st.subs[i], st.log)], st.subs[i].bus)
  {
  }

  // ---- Create: POST /scrape ----

  /** The request body passes the check when `groupUrl` is a non-empty string; a body
      whose properties cannot be read at all makes the handler throw. */
  function CheckBody(body: Json): Result<bool, TypeError>
  {
    match Get(body, "groupUrl")
    case Err(e) => Err(e)
    case Ok(v) => Ok(Truthy(v) && v.value.JStr?)
  }

  /** The job record and task a create adds under `id`. */
  function AddJob(st: Store, id: nat): Store {
    st.(jobs := st.jobs[id := Job(Running, None, None, |st.tasks|)],
        tasks := st.tasks + [Task(id, true)],
        lastId := if id > st.lastId then id else st.lastId)
  }

  /** Create as written: the id is the clock reading `now`, whatever is stored under it. */
  function CreateAsWritten(st: Store, body: Json, now: nat): (Store, Response) {
    match CheckBody(body)
    case Err(_) => (st, ServerError)
    case Ok(false) => (st, BadRequest("Valid groupUrl is required"))
    case Ok(true) => (AddJob(st, now), JobCreated(now))
  }

  /** The id a create uses: the clock reading, or one past the last id if the clock has
      not moved past it. */
  function FreshId(st: Store, now: nat): (id: nat)
    ensures id > st.lastId && (now > st.lastId ==> id == now)
  {
    if now > st.lastId then now else (st.lastId + 1) as nat
  }

  /** Create with an id that no earlier create used. */
  function Create(st: Store, body: Json, now: nat): (Store, Response) {
    match CheckBody(body)
    case Err(_) => (st, ServerError)
    case Ok(false) => (st, BadRequest("Valid groupUrl is required"))
    case Ok(true) => var id := FreshId(st, now); (AddJob(st, id), JobCreated(id))
  }

  /** `scrollLimit || 50` and `cookies || []`: what the server hands the scraper. */
  function OrDefault(v: Option<Json>, default: Json): (r: Json)
    ensures Truthy(v) ==> r == v.value
    ensures !Truthy(v) ==> r == default
  {
    if Truthy(v) then v.value else default
  }

  /** The scroll limit the server falls back to. */
  const ServerScrollLimit: int := 50

  /** What the server hands the scraper for the values a request can carry: a numeric
      limit is kept unless it is 0, a missing or null limit becomes 50; a cookie array
      is kept as it is, even when empty, and a missing or null one becomes empty. */
  lemma ScrapeArguments(n: int, cs: seq<Json>)
    ensures OrDefault(Some(JNum(n)), JNum(ServerScrollLimit)) == if n == 0 then JNum(50) else JNum(n)
    ensures OrDefault(None, JNum(ServerScrollLimit)) == JNum(50)
    ensures OrDefault(Some(JNull), JNum(ServerScrollLimit)) == JNum(50)
    ensures OrDefault(Some(JArr(cs)), JArr([])) == JArr(cs)
    ensures OrDefault(None, JArr([])) == JArr([]) && OrDefault(Some(JNull), JArr([])) == JArr([])
  {
  }

  // ---- Background completion and failure ----

  /** The scrape of task `t` returned `csv` and `fileName`. */
  function Complete(st: Store, t: nat, csv: string, fileName: string): Store {
    if t >= |st.tasks| || !st.tasks[t].running then st
    else
      var id := st.tasks[t].id;
      var jobs := if id in st.jobs
        then st.jobs[id := st.jobs[id].(data := Some(csv), fileName := Some(fileName), status := Done)]
        else st.jobs;
      Emit(st.(jobs := jobs, tasks := st.tasks[t := Task(id, false)]), t,
           DoneEv("/download/" + IntToString(id), fileName))
  }

  /** How a failure report went. `Unhandled` is the background task's rejected promise:
      the "error" emit threw because nobody was listening. */
  datatype FailOutcome = Reported | Unhandled | Ignored

  function FailMessage(message: string): string {
    if message == [] then "Scraper error" else message
  }

  /** Failure as written: mark the job failed if still stored, then emit "error". */
  function FailAsWritten(st: Store, t: nat, message: string): (Store, FailOutcome) {
    if t >= |st.tasks| || !st.tasks[t].running then (st, Ignored)
    else
      var id := st.tasks[t].id;
      var jobs := if id in st.jobs then st.jobs[id := st.jobs[id].(status := Failed)] else st.jobs;
      var marked := st.(jobs := jobs, tasks := st.tasks[t := Task(id, false)]);
      var heard := HasErrorListener(marked, t);
      (Emit(marked, t, ErrorEv(FailMessage(message))), if heard then Reported else Unhandled)
  }

  /** Failure that emits "error" only when someone listens. */
  function Fail(st: Store, t: nat, message: string): (Store, FailOutcome) {
    if t >= |st.tasks| || !st.tasks[t].running then (st, Ignored)
    else
      var id := st.tasks[t].id;
      var jobs := if id in st.jobs then st.jobs[id := st.jobs[id].(status := Failed)] else st.jobs;
      var marked := st.(jobs := jobs, tasks := st.tasks[t := Task(id, false)]);
      if HasErrorListener(marked, t) then (Emit(marked, t, ErrorEv(FailMessage(message))), Reported)
      else (marked, Reported)
  }

  /** A log line or progress record from a running task, on its "log" or "progress" channel. */
  function Publish(st: Store, t: nat, ev: Event): Store {
    if t >= |st.tasks| || !st.tasks[t].running || !(ev.ProgressEv? || ev.LogEv?) then st
    else Emit(st, t, ev)
  }

  // ---- Streams: GET /events/:jobId ----

  function Subscribe(st: Store, id: nat): (Store, Response) {
    if id !in st.jobs then (st, NotFound("Unknown job ID"))
    else
      var job := st.jobs[id];
      var sub := Sub(job.bus, |st.log|, None, job.status, [InfoFrame(job.status)], true, true);
      (st.(subs := st.subs + [sub]), Stream(|st.subs|))
  }

  /** The client closed stream `s`: all four listeners come off. */
  function Disconnect(st: Store, s: nat): Store {
    if s >= |st.subs| || st.subs[s].leftAt.Some? then st
    else st.(subs := st.subs[s := st.subs[s].(leftAt := Some(|st.log|))])
  }

  // ---- Download and expiry ----

  function DownloadName(job: Job, id: nat): string {
    if job.fileName.Some? && job.fileName.value != [] then job.fileName.value
    else "facebook_group_" + IntToString(id) + ".csv"
  }

  /** GET /download/:jobId: serves the CSV and arms a one-minute removal timer. */
  function Download(st: Store, id: nat): (Store, Response) {
    if id !in st.jobs then (st, NotFound("Unknown job"))
    else
      var job := st.jobs[id];
      if job.data.None? || job.data.value == [] then (st, BadRequest("Data not ready yet"))
      else (st.(timers := st.timers + multiset{id}), File(job.data.value, DownloadName(job, id)))
  }

  /** A removal timer for `id` fires. */
  function Expire(st: Store, id: nat): Store {
    if id !in st.timers then st
    else st.(jobs := st.jobs - {id}, timers := st.timers - multiset{id})
  }

  // ---- Cancel: POST /cancel/:jobId ----

  /** Cancel as written: mark canceled, emit "error", then remove the job. With nobody
      listening the emit throws, the handler answers 500, and the removal is skipped. */
  function CancelAsWritten(st: Store, id: nat): (Store, Response) {
    if id !in st.jobs then (st, NotFound("Unknown job"))
    else
      var job := st.jobs[id];
      var marked := st.(jobs := st.jobs[id := job.(status := Canceled)]);
      if HasErrorListener(marked, job.bus) then
        var sent := Emit(marked, job.bus, ErrorEv("Canceled by user"));
        (sent.(jobs := sent.jobs - {id}), CancelOk)
      else (marked, ServerError)
  }

  /** Cancel that emits "error" only when someone listens, and always removes the job. */
  function Cancel(st: Store, id: nat): (Store, Response) {
    if id !in st.jobs then (st, NotFound("Unknown job"))
    else
      var job := st.jobs[id];
      if HasErrorListener(st, job.bus) then
        var sent := Emit(st, job.bus, ErrorEv("Canceled by user"));
        (sent.(jobs := sent.jobs - {id}), CancelOk)
      else (st.(jobs := st.jobs - {id}), CancelOk)
  }

  // ---- The machine ----

  datatype Op =
    | CreateOp(body: Json, now: nat)
    | CompleteOp(task: nat, csv: string, fileName: string)
    | FailOp(task: nat, message: string)
    | PublishOp(task: nat, ev: Event)
    | SubscribeOp(id: nat)
    | DisconnectOp(sub: nat)
    | DownloadOp(id: nat)
    | CancelOp(id: nat)
    | ExpireOp(id: nat)

  /** One transition; requests, background reports and timers interleave freely. */
  function Step(st: Store, op: Op): Store {
    match op
    case CreateOp(body, now) => Create(st, body, now).0
    case CompleteOp(t, csv, name) => Complete(st, t, csv, name)
    case FailOp(t, msg) => Fail(st, t, msg).0
    case PublishOp(t, ev) => Publish(st, t, ev)
    case SubscribeOp(id) => Subscribe(st, id).0
    case DisconnectOp(s) => Disconnect(st, s)
    case DownloadOp(id) => Download(st, id).0
    case CancelOp(id) => Cancel(st, id).0
    case ExpireOp(id) => Expire(st, id)
  }

  /** The store invariant. */
  ghost predicate Inv(st: Store) {
    // stored jobs are running, done or failed; data exactly when done
    && (forall id :: id in st.jobs ==> st.jobs[id].status != Canceled)
    && (forall id :: id in st.jobs ==> (st.jobs[id].data.Some? <==> st.jobs[id].status == Done))
    // every stored job belongs to the task that created it
    && (forall id :: id in st.jobs ==> id <= st.lastId && st.jobs[id].bus < |st.tasks| && st.tasks[st.jobs[id].bus].id == id)
    // task ids are distinct and already issued
    && (forall t :: 0 <= t < |st.tasks| ==> st.tasks[t].id <= st.lastId)
    && (forall t, u :: 0 <= t < u < |st.tasks| ==> st.tasks[t].id != st.tasks[u].id)
    // a job whose task still runs is running
    && (forall t :: 0 <= t < |st.tasks| && st.tasks[t].running && st.tasks[t].id in st.jobs ==>
          st.jobs[st.tasks[t].id].status == Running)
    // every stream's record agrees with the log
    && (forall i :: 0 <= i < |st.subs| ==> SubOk(st.subs[i], st.log, |st.tasks|))
  }

  lemma EmptyInv()
    ensures Inv(Empty)
  {
  }
}

=== FILE: json.dfy ===
/** The JSON values the client and the server receive, and the few JavaScript
    operations applied to them: truthiness, property access and `String(v)`.
    Numbers are integers; a property that is absent reads as `None` (`undefined`). */
module Json {
  import opened Wrappers
  import opened Text

  datatype Json =
    | JNull
    | JBool(b: bool)
    | JNum(n: int)
    | JStr(s: string)
    | JArr(items: seq<Json>)
    | JObj(fields: map<string, Json>)

  /** JavaScript truthiness of a possibly absent value. */
  predicate Truthy(v: Option<Json>) {
    match v
    case None => false
    case Some(JNull) => false
    case Some(JBool(b)) => b
    case Some(JNum(n)) => n != 0
    case Some(JStr(s)) => s != []
    case Some(_) => true
  }

  /** Reading a property fails with a TypeError only on `null`. */
  datatype TypeError = TypeError

  /** `v.key` for a key that no array, string, number or boolean has as its own
      property (such as `name`, `value`, `groupUrl` or `cookies`). */
  function Get(v: Json, key: string): (r: Result<Option<Json>, TypeError>)
    ensures r.Err? <==> v == JNull
    ensures r.Ok? && r.value.Some? ==> v.JObj? && key in v.fields && r.value.value == v.fields[key]
    ensures v.JObj? && key in v.fields ==> r == Ok(Some(v.fields[key]))
  {
    match v
    case JNull => Err(TypeError)
    case JObj(fs) => if key in fs then Ok(Some(fs[key])) else Ok(None)
    case _ => Ok(None)
  }

  /** `v?.key`: optional chaining turns `null` and `undefined` into `undefined`. */
  function GetOpt(v: Option<Json>, key: string): (r: Option<Json>)
    ensures r.Some? ==> v.Some? && v.value.JObj? && key in v.value.fields
  {
    match v
    case Some(JObj(fs)) => if key in fs then Some(fs[key]) else None
    case _ => None
  }

  /** `String(v)`. */
  function StringOf(v: Json): (r: string)
    decreases v, 0
  {
    match v
    case JNull => "null"
    case JBool(b) => if b then "true" else "false"
    case JNum(n) => IntToString(n)
    case JStr(s) => s
    case JArr(xs) => Join(seq(|xs|, i requires 0 <= i < |xs| => ElementString(xs[i])), ",")
    case JObj(_) => "[object Object]"
  }

  /** `Array.prototype.join` writes `null` elements as the empty string. */
  function ElementString(v: Json): string
    decreases v, 1
  {
    if v == JNull then "" else StringOf(v)
  }
}

=== FILE: labels.dfy ===
/** Author-label cleanup: `label.replace(/\s*\(admin\)|Group|Page/gi, "").trim() || "Unknown"`.

    The global replace scans left to right. At each position it tries the three
    alternatives in order and deletes the first one that matches. When none
    matches, it keeps the character and moves on. Because `(` is not white space,
    the greedy `\s*` of the first alternative can only succeed with the whole run of
    white space in front of `(admin)`. The `/i` flag without `u` folds ASCII letters
    only, and every pattern letter is ASCII. */
module Labels {
  import opened Wrappers
  import opened Text

  /** `s` spells `word` at `p`, ignoring ASCII case. */
  predicate WordAt(s: string, p: nat, word: string) {
    && p + |word| <= |s|
    && forall k :: 0 <= k < |word| ==> LowerChar(s[p + k]) == LowerChar(word[k])
  }

  /** The end of the run of white space starting at `q`. */
  function SpaceEnd(s: string, q: nat): (e: nat)
    requires q <= |s|
    ensures q <= e <= |s|
    decreases |s| - q
  {
    if q < |s| && IsSpace(s[q]) then SpaceEnd(s, q + 1) else q
  }

  lemma {:induction false} SpaceEndIsEnd(s: string, q: nat)
    requires q <= |s|
    ensures forall k :: q <= k < SpaceEnd(s, q) ==> IsSpace(s[k])
    ensures SpaceEnd(s, q) == |s| || !IsSpace(s[SpaceEnd(s, q)])
    decreases |s| - q
  {
    if q < |s| && IsSpace(s[q]) {
      SpaceEndIsEnd(s, q + 1);
    }
  }

  /** The end of the marker the pattern matches at `p`, if any. */
  function MarkerAt(s: string, p: nat): (r: Option<nat>)
    requires p < |s|
    ensures r.Some? ==> p < r.value <= |s|
  {
    var e := SpaceEnd(s, p);
    if WordAt(s, e, "(admin)") then Some(e + 7)
    else if WordAt(s, p, "group") then Some(p + 5)
    else if WordAt(s, p, "page") then Some(p + 4)
    else None
  }

  /** Independent description of a marker: white space followed by `(admin)`, or
      `group`, or `page`, in any ASCII case. */
  ghost predicate Marker(t: string) {
    || (&& |t| >= 7
        && (forall k :: 0 <= k < |t| - 7 ==> IsSpace(t[k]))
        && WordAt(t, |t| - 7, "(admin)"))
    || (|t| == 5 && WordAt(t, 0, "group"))
    || (|t| == 4 && WordAt(t, 0, "page"))
  }

  lemma WordAtSlice(s: string, p: nat, e: nat, w: nat, word: string)
    requires p <= e <= |s| && w + |word| == e - p
    ensures WordAt(s[p..e], w, word) <==> WordAt(s, p + w, word)
  {
    if WordAt(s, p + w, word) {
      forall k | 0 <= k < |word|
        ensures LowerChar(s[p..e][w + k]) == LowerChar(word[k])
      {
        assert s[p..e][w + k] == s[p + w + k];
      }
    }
    if WordAt(s[p..e], w, word) {
      forall k | 0 <= k < |word|
        ensures LowerChar(s[p + w + k]) == LowerChar(word[k])
      {
        assert s[p..e][w + k] == s[p + w + k];
      }
    }
  }

  /** The scanner finds a marker exactly where the description says one starts, and
      the marker it finds is the only one starting there. */
  lemma MarkerAtIsMarker(s: string, p: nat)
    requires p < |s|
    ensures MarkerAt(s, p).Some? ==> Marker(s[p..MarkerAt(s, p).value])
    ensures forall e :: p < e <= |s| && Marker(s[p..e]) ==> MarkerAt(s, p) == Some(e)
  {
    MarkerFound(s, p);
    forall e | p < e <= |s| && Marker(s[p..e])
      ensures MarkerAt(s, p) == Some(e)
    {
      MarkerUnique(s, p, e);
    }
  }

  lemma MarkerFound(s: string, p: nat)
    requires p < |s|
    ensures MarkerAt(s, p).Some? ==> Marker(s[p..MarkerAt(s, p).value])
  {
    var m := SpaceEnd(s, p);
    SpaceEndIsEnd(s, p);
    if WordAt(s, m, "(admin)") {
      var t := s[p..m + 7];
      WordAtSlice(s, p, m + 7, m - p, "(admin)");
      assert forall k :: 0 <= k < |t| - 7 ==> t[k] == s[p + k];
    } else if WordAt(s, p, "group") {
      WordAtSlice(s, p, p + 5, 0, "group");
    } else if WordAt(s, p, "page") {
      WordAtSlice(s, p, p + 4, 0, "page");
    }
  }

  lemma MarkerUnique(s: string, p: nat, e: nat)
    requires p < e <= |s| && Marker(s[p..e])
    ensures MarkerAt(s, p) == Some(e)
  {
    var t := s[p..e];
    if |t| >= 7 && (forall k :: 0 <= k < |t| - 7 ==> IsSpace(t[k])) && WordAt(t, |t| - 7, "(admin)") {
      AdminMarkerUnique(s, p, e);
    } else if |t| == 5 && WordAt(t, 0, "group") {
      WordAtSlice(s, p, e, 0, "group");
      assert LowerChar(s[p]) == LowerChar("group"[0]) == 'g';
      NotAdminAt(s, p);
    } else {
      assert |t| == 4 && WordAt(t, 0, "page");
      WordAtSlice(s, p, e, 0, "page");
      assert LowerChar(s[p]) == LowerChar("page"[0]) == 'p';
      NotAdminAt(s, p);
      assert !WordAt(s, p, "group") by {
        assert LowerChar("group"[0]) == 'g';
      }
    }
  }

  /** An admin marker from `p` to `e` is the one the scanner finds at `p`. */
  lemma AdminMarkerUnique(s: string, p: nat, e: nat)
    requires p + 7 <= e <= |s|
    requires forall k :: 0 <= k < e - p - 7 ==> IsSpace(s[p..e][k])
    requires WordAt(s[p..e], e - p - 7, "(admin)")
    ensures MarkerAt(s, p) == Some(e)
  {
    var t := s[p..e];
    WordAtSlice(s, p, e, |t| - 7, "(admin)");
    assert p + (|t| - 7) == e - 7;
    assert LowerChar(s[e - 7 + 0]) == LowerChar("(admin)"[0]) == '(';
    assert forall k :: p <= k < e - 7 ==> IsSpace(s[k]) by {
      assert forall k :: p <= k < e - 7 ==> s[k] == t[k - p];
    }
    SpaceEndBound(s, p, e - 7);
  }

  /** A run of white space ending just before a non-space character is the run `SpaceEnd` finds. */
  lemma {:induction false} SpaceEndBound(s: string, q: nat, e: nat)
    requires q <= e < |s| && !IsSpace(s[e])
    requires forall k :: q <= k < e ==> IsSpace(s[k])
    ensures SpaceEnd(s, q) == e
    decreases e - q
  {
    if q < e {
      SpaceEndBound(s, q + 1, e);
    }
  }

  /** A position holding a letter starts no `(admin)` alternative. */
  lemma NotAdminAt(s: string, p: nat)
    requires p < |s| && 'a' <= LowerChar(s[p]) <= 'z'
    ensures !WordAt(s, SpaceEnd(s, p), "(admin)")
  {
    assert !IsSpace(s[p]);
    assert SpaceEnd(s, p) == p;
    assert LowerChar("(admin)"[0]) == '(';
  }

  /** No marker starts at a character that is neither white space nor the first
      letter of an alternative. */
  lemma NoMarkerAt(s: string, p: nat)
    requires p < |s| && !IsSpace(s[p])
    requires LowerChar(s[p]) !in {'(', 'g', 'p'}
    ensures MarkerAt(s, p).None?
  {
    assert SpaceEnd(s, p) == p;
    assert LowerChar("(admin)"[0]) == '(' && LowerChar("group"[0]) == 'g' && LowerChar("page"[0]) == 'p';
  }

  /** Deletes every marker the global replace finds from `p` on. */
  function StripFrom(s: string, p: nat): (r: string)
    requires p <= |s|
    ensures |r| <= |s| - p
    decreases |s| - p
  {
    if p == |s| then []
    else match MarkerAt(s, p)
      case Some(e) => StripFrom(s, e)
      case None => [s[p]] + StripFrom(s, p + 1)
  }

  /** Where no marker starts, the character is kept and the scan moves one on. */
  lemma StripKeeps(s: string, p: nat)
    requires p < |s| && MarkerAt(s, p).None?
    ensures StripFrom(s, p) == [s[p]] + StripFrom(s, p + 1)
  {
  }

  lemma StripKeepsTwo(s: string)
    requires 2 <= |s| && MarkerAt(s, 0).None? && MarkerAt(s, 1).None?
    ensures StripFrom(s, 0) == s[..2] + StripFrom(s, 2)
  {
    var x := StripFrom(s, 2);
    StripKeeps(s, 1);
    StripKeeps(s, 0);
    PairPrefix(s[..2], x);
  }

  lemma PairPrefix(ab: string, x: string)
    requires |ab| == 2
    ensures [ab[0]] + ([ab[1]] + x) == ab + x
  {
  }

  function StripMarkers(s: string): string {
    StripFrom(s, 0)
  }

  /** The replace leaves a label unchanged exactly when no marker starts anywhere in it. */
  lemma StripMarkersUnchanged(s: string)
    ensures StripMarkers(s) == s <==> forall p :: 0 <= p < |s| ==> MarkerAt(s, p).None?
  {
    StripFromUnchanged(s, 0);
  }

  lemma {:induction false} StripFromUnchanged(s: string, q: nat)
    requires q <= |s|
    ensures StripFrom(s, q) == s[q..] <==> forall p :: q <= p < |s| ==> MarkerAt(s, p).None?
    decreases |s| - q
  {
    if q < |s| {
      StripFromUnchanged(s, q + 1);
      if (forall p :: q <= p < |s| ==> MarkerAt(s, p).None?) {
        assert s[q..] == [s[q]] + s[q + 1..];
      } else {
        var p :| q <= p < |s| && MarkerAt(s, p).Some?;
        StripFromShrinks(s, q, p);
      }
    }
  }

  /** Any marker at or after `q` makes the output strictly shorter than the input. */
  lemma {:induction false} StripFromShrinks(s: string, q: nat, p: nat)
    requires q <= p < |s| && MarkerAt(s, p).Some?
    ensures |StripFrom(s, q)| < |s| - q
    decreases |s| - q
  {
    match MarkerAt(s, q)
    case Some(e) =>
    case None =>
      StripFromShrinks(s, q + 1, p);
  }

  /** `label.replace(...).trim() || "Unknown"`: never empty, never padded with white space. */
  function CleanLabel(raw: string): (r: string)
    ensures r != []
    ensures Trimmed(r)
  {
    var t := Trim(StripMarkers(raw));
    TrimIsTrimmed(StripMarkers(raw));
    if t == [] then "Unknown" else t
  }

  /** A label without markers only loses its surrounding white space. */
  lemma CleanPlainLabel(raw: string)
    requires forall p :: 0 <= p < |raw| ==> MarkerAt(raw, p).None?
    requires exists k :: 0 <= k < |raw| && !IsSpace(raw[k])
    ensures CleanLabel(raw) == Trim(raw)
  {
    StripMarkersUnchanged(raw);
    TrimIsTrimmed(raw);
  }

  /** A label made only of white space and markers becomes "Unknown". */
  lemma CleanBlankLabel(raw: string)
    requires forall k :: 0 <= k < |StripMarkers(raw)| ==> IsSpace(StripMarkers(raw)[k])
    ensures CleanLabel(raw) == "Unknown"
  {
    TrimIsTrimmed(StripMarkers(raw));
  }
}

/** Worked cases for the cleanup rule. */
module LabelExamples {
  import opened Wrappers
  import opened Text
  import opened Labels

  lemma AdminMarkerStrip(s: string)
    requires s == "Ann" + " (Admin)"
    ensures StripMarkers(s) == "Ann"
  {
    NoMarkerAt(s, 0);
    NoMarkerAt(s, 1);
    NoMarkerAt(s, 2);
    AdminMarkerAt(s);
    assert StripFrom(s, 3) == [];
    assert StripFrom(s, 2) == "n";
    assert StripFrom(s, 1) == "nn";
  }

  lemma AdminMarkerAt(s: string)
    requires s == "Ann" + " (Admin)"
    ensures MarkerAt(s, 3) == Some(11)
  {
    assert SpaceEnd(s, 3) == 4 by {
      assert SpaceEnd(s, 4) == 4;
    }
    assert WordAt(s, 4, "(admin)") by {
      assert s[4..11] == "(Admin)";
    }
  }

  lemma TrimPlain(s: string)
    requires s == "Ann"
    ensures Trim(s) == s
  {
    assert !IsSpace(s[0]) && !IsSpace(s[2]);
    TrimUnchanged(s);
  }

  /** A trailing admin marker and the white space in front of it go. */
  lemma AdminMarker(s: string)
    requires s == "Ann" + " (Admin)"
    ensures CleanLabel(s) == "Ann"
  {
    AdminMarkerStrip(s);
    TrimPlain("Ann");
  }

  lemma NestedMarkerFirst(s: string)
    requires s == "GrGroupoup"
    ensures MarkerAt(s, 0).None?
  {
    assert !WordAt(s, 0, "group") by { assert LowerChar(s[2]) != LowerChar("group"[2]); }
    assert SpaceEnd(s, 0) == 0;
    assert LowerChar("(admin)"[0]) == '(' && LowerChar("page"[0]) == 'p';
  }

  lemma NestedMarkerInner(s: string)
    requires s == "GrGroupoup"
    ensures MarkerAt(s, 2) == Some(7)
  {
    assert SpaceEnd(s, 2) == 2;
    assert !WordAt(s, 2, "(admin)") by { assert LowerChar("(admin)"[0]) == '('; }
    assert WordAt(s, 2, "group");
  }

  lemma NestedMarkerLast(s: string)
    requires s == "GrGroupoup"
    ensures MarkerAt(s, 9).None?
  {
    assert SpaceEnd(s, 9) == 9;
  }

  lemma NestedTail(s: string)
    requires s == "GrGroupoup"
    ensures StripFrom(s, 2) == "oup"
  {
    NestedMarkerInner(s);
    NoMarkerAt(s, 7);
    NoMarkerAt(s, 8);
    NestedMarkerLast(s);
    assert StripFrom(s, 9) == "p";
    assert StripFrom(s, 8) == "up";
  }

  lemma NestedMarkerStrip(s: string)
    requires s == "GrGroupoup"
    ensures StripMarkers(s) == "Group"
  {
    NestedHead(s);
    NestedTail(s);
    assert "Gr" + "oup" == "Group";
  }

  lemma NestedHead(s: string)
    requires s == "GrGroupoup"
    ensures StripFrom(s, 0) == "Gr" + StripFrom(s, 2)
  {
    NestedMarkerFirst(s);
    NoMarkerAt(s, 1);
    StripKeepsTwo(s);
    assert s[..2] == "Gr";
  }

  lemma WholeMarkerStrip(s: string)
    requires s == "Group"
    ensures StripMarkers(s) == []
  {
    assert SpaceEnd(s, 0) == 0;
    assert MarkerAt(s, 0) == Some(5);
  }

  lemma TrimGroup(s: string)
    requires s == "Group"
    ensures Trim(s) == s
  {
    assert !IsSpace(s[0]) && !IsSpace(s[4]);
    TrimUnchanged(s);
  }

  /** Cleaning is not idempotent: a marker can be assembled by deleting an inner one.
      A post's label is cleaned when the post is read and again when its row is
      written, so this author ends up "Unknown". */
  lemma CleanTwice(s: string)
    requires s == "GrGroupoup"
    ensures CleanLabel(s) == "Group"
    ensures CleanLabel(CleanLabel(s)) == "Unknown"
  {
    assert CleanLabel(s) == "Group" by {
      NestedMarkerStrip(s);
      TrimGroup("Group");
    }
    assert CleanLabel("Group") == "Unknown" by {
      WholeMarkerStrip("Group");
    }
  }
}

=== FILE: phones.dfy ===
/** Phone-number extraction (`extractPhones`, scraper.js): the global regular
    expression `\+?\d[\d\s().\-–—]{7,}\d` run as an explicit left-to-right scanner,
    then separator stripping, the 8–15 length filter and first-occurrence
    deduplication. */
module Phones {
  import opened Wrappers
  import opened Text
  import opened Seqs

  /** The repeated class `[\d\s().\-–—]`; `+` is not in it. */
  predicate InClass(c: char) {
    IsDigit(c) || IsSpace(c) || c == '(' || c == ')' || c == '.' || c == '-'
    || c == '\U{2013}' || c == '\U{2014}'
  }

  /** `t` is matched in full by `\d[class]{7,}\d`. */
  ghost predicate Body(t: string) {
    && |t| >= 9
    && IsDigit(t[0]) && IsDigit(t[|t| - 1])
    && forall k :: 1 <= k < |t| - 1 ==> InClass(t[k])
  }

  /** `t` is matched in full by the whole pattern `\+?\d[class]{7,}\d`. */
  ghost predicate Pattern(t: string) {
    Body(t) || (t != [] && t[0] == '+' && Body(t[1..]))
  }

  /** The first index at or after `q` whose character is outside the class. */
  function RunEnd(s: string, q: nat): (e: nat)
    requires q <= |s|
    ensures q <= e <= |s|
    decreases |s| - q
  {
    if q < |s| && InClass(s[q]) then RunEnd(s, q + 1) else q
  }

  lemma {:induction false} RunEndIsEnd(s: string, q: nat)
    requires q <= |s|
    ensures forall k :: q <= k < RunEnd(s, q) ==> InClass(s[k])
    ensures RunEnd(s, q) == |s| || !InClass(s[RunEnd(s, q)])
    decreases |s| - q
  {
    if q < |s| && InClass(s[q]) {
      RunEndIsEnd(s, q + 1);
    }
  }

  /** The largest index in `[lo, hi)` holding a digit. */
  function LastDigit(s: string, lo: nat, hi: nat): (r: Option<nat>)
    requires hi <= |s|
    ensures r.Some? ==> lo <= r.value < hi
    decreases hi
  {
    if hi <= lo then None
    else if IsDigit(s[hi - 1]) then Some(hi - 1)
    else LastDigit(s, lo, hi - 1)
  }

  lemma {:induction false} LastDigitIsLast(s: string, lo: nat, hi: nat)
    requires hi <= |s|
    ensures LastDigit(s, lo, hi).Some? ==> IsDigit(s[LastDigit(s, lo, hi).value])
    ensures LastDigit(s, lo, hi).Some? ==> forall k :: LastDigit(s, lo, hi).value < k < hi ==> !IsDigit(s[k])
    ensures LastDigit(s, lo, hi).None? ==> forall k :: lo <= k < hi ==> !IsDigit(s[k])
    decreases hi
  {
    if lo < hi && !IsDigit(s[hi - 1]) {
      LastDigitIsLast(s, lo, hi - 1);
    }
  }

  /** Where the leading digit of a match starting at `p` must be: after an optional `+`. */
  function DigitStart(s: string, p: nat): nat
    requires p <= |s|
  {
    if p < |s| && s[p] == '+' then p + 1 else p
  }

  /** Characterises the pattern on `s[p..e]` through the position of its leading digit. */
  lemma PatternAt(s: string, p: nat, e: nat)
    requires p <= e <= |s|
    ensures Pattern(s[p..e]) <==>
      var d := DigitStart(s, p);
      && d + 9 <= e && IsDigit(s[d]) && IsDigit(s[e - 1])
      && forall k :: d < k < e - 1 ==> InClass(s[k])
  {
    var t := s[p..e];
    var d := DigitStart(s, p);
    if d == p + 1 {
      if e >= d {
        assert t[1..] == s[d..e];
      }
      assert !Body(t);
    } else {
      assert t == s[d..e];
    }
  }

  /** The match the regular expression makes when tried at `p`, as its end index:
      an optional `+`, a digit, the longest run of class characters, then backtracking
      to the last digit of that run that leaves at least seven class characters. */
  function MatchAt(s: string, p: nat): (r: Option<nat>)
    requires p <= |s|
    ensures r.Some? ==> p < r.value <= |s|
  {
    var d := DigitStart(s, p);
    if d < |s| && IsDigit(s[d]) then
      match LastDigit(s, d + 8, RunEnd(s, d + 1))
      case Some(j) => Some(j + 1)
      case None => None
    else None
  }

  /** A run of class characters from `q` to `e` lies within the run `RunEnd` finds. */
  lemma {:induction false} RunEndCovers(s: string, q: nat, e: nat)
    requires q <= e <= |s|
    requires forall k :: q <= k < e ==> InClass(s[k])
    ensures e <= RunEnd(s, q)
    decreases e - q
  {
    if q < e {
      RunEndCovers(s, q + 1, e);
    }
  }

  /** Any full match starting at `p` starts with a digit at its leading position and ends
      on a digit inside the class run that follows it. */
  lemma PatternEndInRun(s: string, p: nat, e: nat)
    requires p <= e <= |s| && Pattern(s[p..e])
    ensures var d := DigitStart(s, p);
      && d < |s| && IsDigit(s[d])
      && d + 8 <= e - 1 < RunEnd(s, d + 1) && IsDigit(s[e - 1])
  {
    var d := DigitStart(s, p);
    PatternAt(s, p, e);
    forall k | d + 1 <= k < e ensures InClass(s[k]) {
      if k == e - 1 {
        assert IsDigit(s[k]);
      }
    }
    RunEndCovers(s, d + 1, e);
  }

  /** The scanner agrees with the pattern: a match at `p` is the longest text starting at
      `p` that the pattern matches in full (greedy quantifiers, backtracking only as far as
      needed), and there is no match at `p` exactly when no such text exists. */
  lemma MatchAtIsLongestMatch(s: string, p: nat)
    requires p <= |s|
    ensures MatchAt(s, p).Some? ==> Pattern(s[p..MatchAt(s, p).value])
    ensures MatchAt(s, p).Some? ==> forall e :: MatchAt(s, p).value < e <= |s| ==> !Pattern(s[p..e])
    ensures MatchAt(s, p).None? ==> forall e :: p <= e <= |s| ==> !Pattern(s[p..e])
  {
    var d := DigitStart(s, p);
    if MatchAt(s, p).Some? {
      MatchFound(s, p);
    }
    forall e | p <= e <= |s| && Pattern(s[p..e]) ensures MatchAt(s, p).Some? && e <= MatchAt(s, p).value {
      PatternEndBound(s, p, e);
    }
  }

  /** Any full match starting at `p` ends no later than the match the scanner makes. */
  lemma PatternEndBound(s: string, p: nat, e: nat)
    requires p <= e <= |s| && Pattern(s[p..e])
    ensures MatchAt(s, p).Some? && e <= MatchAt(s, p).value
  {
    PatternEndInRun(s, p, e);
    var d := DigitStart(s, p);
    LastDigitIsLast(s, d + 8, RunEnd(s, d + 1));
  }

  /** The text up to the last digit of the run is a full match. */
  lemma MatchFound(s: string, p: nat)
    requires p <= |s| && MatchAt(s, p).Some?
    ensures Pattern(s[p..MatchAt(s, p).value])
  {
    var e := MatchAt(s, p).value;
    MatchShape(s, p);
    PatternOf(s, p, e);
  }

  /** What the scanner's match looks like: a digit after the optional sign, at least
      seven class characters, and a final digit. */
  lemma MatchShape(s: string, p: nat)
    requires p <= |s| && MatchAt(s, p).Some?
    ensures var d := DigitStart(s, p); var e := MatchAt(s, p).value;
      && d + 9 <= e && IsDigit(s[d]) && IsDigit(s[e - 1])
      && forall k :: d < k < e - 1 ==> InClass(s[k])
  {
    var d := DigitStart(s, p);
    var run := RunEnd(s, d + 1);
    RunEndIsEnd(s, d + 1);
    LastDigitIsLast(s, d + 8, run);
  }

  /** A full body after the optional sign is a full match. */
  lemma PatternOf(s: string, p: nat, e: nat)
    requires p <= |s| && DigitStart(s, p) + 9 <= e <= |s|
    requires IsDigit(s[DigitStart(s, p)]) && IsDigit(s[e - 1])
    requires forall k :: DigitStart(s, p) < k < e - 1 ==> InClass(s[k])
    ensures Pattern(s[p..e])
  {
    BodyOf(s, DigitStart(s, p), e);
    var t := s[p..e];
    if DigitStart(s, p) == p + 1 {
      assert t[1..] == s[p + 1..e];
      assert t != [] && t[0] == '+' && Body(t[1..]);
    } else {
      assert Body(t);
    }
  }

  lemma BodyOf(s: string, d: nat, e: nat)
    requires d + 9 <= e <= |s| && IsDigit(s[d]) && IsDigit(s[e - 1])
    requires forall k :: d < k < e - 1 ==> InClass(s[k])
    ensures Body(s[d..e])
  {
    var t := s[d..e];
    forall k | 1 <= k < |t| - 1 ensures InClass(t[k]) {
      assert t[k] == s[d + k];
    }
  }

  /** One match of the global search: `s[start..end]`. */
  datatype Span = Span(start: nat, end: nat)

  /** `String.prototype.match` with the `g` flag, from index `p`: try the pattern at each
      index in turn; after a match, resume at its end (a match is never empty). */
  function Scan(s: string, p: nat): (ms: seq<Span>)
    requires p <= |s|
    ensures forall i :: 0 <= i < |ms| ==> p <= ms[i].start < ms[i].end <= |s|
    decreases |s| - p
  {
    if p == |s| then []
    else
      match MatchAt(s, p)
      case Some(e) => [Span(p, e)] + Scan(s, e)
      case None => Scan(s, p + 1)
  }

  /** Every span is a match made where the search tried the pattern. */
  ghost predicate MatchesAtStarts(s: string, ms: seq<Span>) {
    forall i :: 0 <= i < |ms| ==> ms[i].start <= |s| && MatchAt(s, ms[i].start) == Some(ms[i].end)
  }

  /** Spans come in text order and do not overlap. */
  ghost predicate Ordered(ms: seq<Span>) {
    forall i :: 0 <= i < |ms| - 1 ==> ms[i].end <= ms[i + 1].start
  }

  /** Reading from `p`: the pattern fails at every index before the next span's start
      (or before the end of the text when no span is left), and the same holds from the
      end of that span for the spans after it. */
  ghost predicate Leftmost(s: string, p: nat, ms: seq<Span>)
    decreases |ms|
  {
    var next := if ms == [] then |s| else ms[0].start;
    && (forall k :: p <= k < next && k <= |s| ==> MatchAt(s, k).None?)
    && (ms != [] ==> Leftmost(s, ms[0].end, ms[1..]))
  }

  /** Unfolds one step of the search. */
  lemma ScanStep(s: string, p: nat)
    requires p < |s|
    ensures MatchAt(s, p).Some? ==> Scan(s, p) == [Span(p, MatchAt(s, p).value)] + Scan(s, MatchAt(s, p).value)
    ensures MatchAt(s, p).None? ==> Scan(s, p) == Scan(s, p + 1)
  {
  }

  /** Every span the global search returns is the match made at its start. */
  lemma {:induction false} ScanMatches(s: string, p: nat)
    requires p <= |s|
    ensures MatchesAtStarts(s, Scan(s, p))
    decreases |s| - p
  {
    if p < |s| {
      var m := MatchAt(s, p);
      if m.Some? {
        ScanMatches(s, m.value);
        MatchesCons(s, Span(p, m.value), Scan(s, m.value));
        assert Scan(s, p) == [Span(p, m.value)] + Scan(s, m.value) by {
          ScanStep(s, p);
        }
      } else {
        ScanMatches(s, p + 1);
        assert Scan(s, p) == Scan(s, p + 1) by {
          ScanStep(s, p);
        }
      }
    }
  }

  lemma MatchesCons(s: string, sp: Span, rest: seq<Span>)
    requires sp.start <= |s| && MatchAt(s, sp.start) == Some(sp.end)
    requires MatchesAtStarts(s, rest)
    ensures MatchesAtStarts(s, [sp] + rest)
  {
    var ms := [sp] + rest;
    forall i | 0 <= i < |ms| ensures ms[i].start <= |s| && MatchAt(s, ms[i].start) == Some(ms[i].end) {
      if i > 0 { assert ms[i] == rest[i - 1]; }
    }
  }

  lemma OrderedCons(sp: Span, rest: seq<Span>)
    requires Ordered(rest) && (rest == [] || sp.end <= rest[0].start)
    ensures Ordered([sp] + rest)
  {
    var ms := [sp] + rest;
    forall i | 0 <= i < |ms| - 1 ensures ms[i].end <= ms[i + 1].start {
      if i > 0 { assert ms[i] == rest[i - 1] && ms[i + 1] == rest[i]; }
    }
  }

  /** The spans come in text order and do not overlap. */
  lemma {:induction false} ScanOrdered(s: string, p: nat)
    requires p <= |s|
    ensures Ordered(Scan(s, p))
    decreases |s| - p
  {
    if p < |s| {
      var m := MatchAt(s, p);
      if m.Some? {
        var rest := Scan(s, m.value);
        ScanOrdered(s, m.value);
        OrderedCons(Span(p, m.value), rest);
        assert Scan(s, p) == [Span(p, m.value)] + rest by {
          ScanStep(s, p);
        }
      } else {
        ScanOrdered(s, p + 1);
        assert Scan(s, p) == Scan(s, p + 1) by {
          ScanStep(s, p);
        }
      }
    }
  }

  /** The search skips an index only when the pattern fails there: the matches are the
      leftmost ones. */
  lemma {:induction false} ScanLeftmost(s: string, p: nat)
    requires p <= |s|
    ensures Leftmost(s, p, Scan(s, p))
    decreases |s| - p
  {
    if p < |s| {
      ScanStep(s, p);
      var m := MatchAt(s, p);
      if m.Some? {
        ScanLeftmost(s, m.value);
        LeftmostCons(s, p, m.value, Scan(s, m.value));
      } else {
        ScanLeftmost(s, p + 1);
        LeftmostSkip(s, p, Scan(s, p + 1));
      }
    }
  }

  lemma LeftmostCons(s: string, p: nat, e: nat, rest: seq<Span>)
    requires Leftmost(s, e, rest)
    ensures Leftmost(s, p, [Span(p, e)] + rest)
  {
    var ms := [Span(p, e)] + rest;
    assert ms[0] == Span(p, e) && ms[1..] == rest;
  }

  lemma LeftmostSkip(s: string, p: nat, ms: seq<Span>)
    requires p < |s| && MatchAt(s, p).None? && Leftmost(s, p + 1, ms)
    ensures Leftmost(s, p, ms)
  {
  }

  /** `n.replace(/[^\d+]/g, "")`: keeps digits and `+`. */
  function Normalize(t: string): (r: string)
    ensures |r| <= |t|
    ensures forall k :: 0 <= k < |r| ==> IsDigit(r[k]) || r[k] == '+'
  {
    if t == [] then []
    else if IsDigit(t[0]) || t[0] == '+' then [t[0]] + Normalize(t[1..])
    else Normalize(t[1..])
  }

  lemma {:induction false} NormalizeNoPlus(t: string)
    requires forall k :: 0 <= k < |t| ==> t[k] != '+'
    ensures forall k :: 0 <= k < |Normalize(t)| ==> IsDigit(Normalize(t)[k])
  {
    if t != [] {
      NormalizeNoPlus(t[1..]);
    }
  }

  /** What every extracted value looks like: 8 to 15 characters, all digits except
      possibly a `+` in first position. */
  ghost predicate WellFormed(x: string) {
    && 8 <= |x| <= 15
    && forall k :: 0 <= k < |x| ==> IsDigit(x[k]) || (k == 0 && x[k] == '+')
  }

  /** The class has no `+`, so a matched text normalises to digits with at most a leading `+`. */
  lemma NormalizeMatch(t: string)
    requires Pattern(t)
    ensures forall k :: 0 <= k < |Normalize(t)| ==> IsDigit(Normalize(t)[k]) || (k == 0 && Normalize(t)[k] == '+')
  {
    if t[0] == '+' {
      NormalizeNoPlus(t[1..]);
      assert Normalize(t) == ['+'] + Normalize(t[1..]);
    } else {
      NormalizeNoPlus(t);
    }
  }

  /** The normalised text of every match, in match order. */
  function Candidates(s: string): (cs: seq<string>)
    ensures |cs| == |Scan(s, 0)|
  {
    var ms := Scan(s, 0);
    seq(|ms|, i requires 0 <= i < |ms| => Normalize(s[ms[i].start..ms[i].end]))
  }

  /** Every candidate is digits, except possibly a leading `+`. */
  lemma CandidateShape(s: string)
    ensures forall i :: 0 <= i < |Candidates(s)| ==>
      forall k :: 0 <= k < |Candidates(s)[i]| ==>
        IsDigit(Candidates(s)[i][k]) || (k == 0 && Candidates(s)[i][k] == '+')
  {
    var ms := Scan(s, 0);
    var cs := Candidates(s);
    ScanMatches(s, 0);
    forall i | 0 <= i < |cs|
      ensures forall k :: 0 <= k < |cs[i]| ==> IsDigit(cs[i][k]) || (k == 0 && cs[i][k] == '+')
    {
      MatchAtIsLongestMatch(s, ms[i].start);
      NormalizeMatch(s[ms[i].start..ms[i].end]);
    }
  }

  predicate LengthOk(x: string) {
    8 <= |x| <= 15
  }

  /** The candidates that pass the length filter, in match order. */
  function Kept(s: string): seq<string> {
    Filter(Candidates(s), LengthOk)
  }

  /** `extractPhones(text)`: the candidates of allowed length, each once, in the order of
      their first occurrence. */
  function ExtractPhones(text: string): (r: seq<string>)
    ensures NoDup(r)
    ensures forall i :: 0 <= i < |r| ==> LengthOk(r[i]) && r[i] in Candidates(text)
    ensures forall c :: c in Candidates(text) && LengthOk(c) ==> c in r
    ensures forall i, j :: 0 <= i < j < |r| ==> IndexOf(Kept(text), r[i]) < IndexOf(Kept(text), r[j])
  {
    var cs := Candidates(text);
    var kept := Kept(text);
    assert forall c :: c in cs && LengthOk(c) ==> c in kept by {
      forall c | c in cs && LengthOk(c) ensures c in kept {
        var i :| 0 <= i < |cs| && cs[i] == c;
      }
    }
    Dedup(kept)
  }

  /** Every value `extractPhones` returns has 8 to 15 characters, all digits except
      possibly a `+` in first position. */
  lemma ExtractedAreWellFormed(text: string)
    ensures forall i :: 0 <= i < |ExtractPhones(text)| ==> WellFormed(ExtractPhones(text)[i])
  {
    CandidateShape(text);
    var r := ExtractPhones(text);
    var cs := Candidates(text);
    forall i | 0 <= i < |r| ensures WellFormed(r[i]) {
      var j :| 0 <= j < |cs| && cs[j] == r[i];
    }
  }

  /** A text with no match yields no phone. */
  lemma NoMatchNoPhones(text: string)
    requires forall p :: 0 <= p <= |text| ==> MatchAt(text, p).None?
    ensures ExtractPhones(text) == []
  {
    ScanMatches(text, 0);
  }

  /** Where there is neither a digit nor a `+`, the search moves on without a match. */
  lemma {:induction false} SkipPlainText(s: string, lo: nat, hi: nat)
    requires lo <= hi <= |s|
    requires forall c :: c in s[lo..hi] ==> !IsDigit(c) && c != '+'
    ensures Scan(s, lo) == Scan(s, hi)
    decreases hi - lo
  {
    if lo < hi {
      assert s[lo] in s[lo..hi];
      assert MatchAt(s, lo).None?;
      assert s[lo + 1..hi] <= s[lo..hi][1..];
      SkipPlainText(s, lo + 1, hi);
    }
  }

  /** A string of digits and `+` signs is already normal. */
  lemma {:induction false} NormalizeKeeps(t: string)
    requires forall k :: 0 <= k < |t| ==> IsDigit(t[k]) || t[k] == '+'
    ensures Normalize(t) == t
  {
    if t != [] {
      NormalizeKeeps(t[1..]);
    }
  }

  lemma {:induction false} NormalizeAppend(a: string, b: string)
    ensures Normalize(a + b) == Normalize(a) + Normalize(b)
  {
    if a == [] {
      assert a + b == b;
    } else {
      assert (a + b)[1..] == a[1..] + b;
      NormalizeAppend(a[1..], b);
    }
  }

  /** The first match of the worked example: `+1 (555) 123-4567`, where the run of class
      characters goes on through the following blank and backtracking returns to the `7`. */
  lemma ExampleFirstMatch(s: string)
    requires s == "Call me at " + "+1 (555) " + "123-4567" + " or " + "555.987." + "6543" + " today"
    ensures MatchAt(s, 11) == Some(28)
  {
    assert s[11] == '+' && s[12] == '1';
    assert s[28] == ' ' && s[29] == 'o';
    assert RunEnd(s, 29) == 29;
    assert RunEnd(s, 28) == 29;
    assert RunEnd(s, 27) == 29;
    assert RunEnd(s, 26) == 29;
    assert RunEnd(s, 25) == 29;
    assert RunEnd(s, 24) == 29;
    assert RunEnd(s, 23) == 29;
    assert RunEnd(s, 22) == 29;
    assert RunEnd(s, 21) == 29;
    assert RunEnd(s, 20) == 29;
    assert RunEnd(s, 19) == 29;
    assert RunEnd(s, 18) == 29;
    assert RunEnd(s, 17) == 29;
    assert RunEnd(s, 16) == 29;
    assert RunEnd(s, 15) == 29;
    assert RunEnd(s, 14) == 29;
    assert RunEnd(s, 13) == 29;
    assert s[27] == '7';
    assert LastDigit(s, 20, 29) == LastDigit(s, 20, 28) == Some(27);
  }

  /** The second match of the worked example: `555.987.6543`. */
  lemma ExampleSecondMatch(s: string)
    requires s == "Call me at " + "+1 (555) " + "123-4567" + " or " + "555.987." + "6543" + " today"
    ensures MatchAt(s, 32) == Some(44)
  {
    assert s[32] == '5';
    assert s[44] == ' ' && s[45] == 't';
    assert RunEnd(s, 45) == 45;
    assert RunEnd(s, 44) == 45;
    assert RunEnd(s, 43) == 45;
    assert RunEnd(s, 42) == 45;
    assert RunEnd(s, 41) == 45;
    assert RunEnd(s, 40) == 45;
    assert RunEnd(s, 39) == 45;
    assert RunEnd(s, 38) == 45;
    assert RunEnd(s, 37) == 45;
    assert RunEnd(s, 36) == 45;
    assert RunEnd(s, 35) == 45;
    assert RunEnd(s, 34) == 45;
    assert RunEnd(s, 33) == 45;
    assert s[43] == '3';
    assert LastDigit(s, 40, 45) == LastDigit(s, 40, 44) == Some(43);
  }

  /** The search over the worked example finds exactly the two matches above. */
  lemma ExampleScan(s: string)
    requires s == "Call me at " + "+1 (555) " + "123-4567" + " or " + "555.987." + "6543" + " today"
    ensures Scan(s, 0) == [Span(11, 28), Span(32, 44)]
  {
    assert s[0..11] == "Call me at ";
    SkipPlainText(s, 0, 11);
    ExampleFirstMatch(s);
    ExampleScanTail(s);
    assert Scan(s, 11) == [Span(11, 28)] + Scan(s, 28);
  }

  /** After the first match the search finds the second one and nothing more. */
  lemma ExampleScanTail(s: string)
    requires s == "Call me at " + "+1 (555) " + "123-4567" + " or " + "555.987." + "6543" + " today"
    ensures Scan(s, 28) == [Span(32, 44)]
  {
    assert s[28..32] == " or ";
    SkipPlainText(s, 28, 32);
    ExampleSecondMatch(s);
    assert s[44..50] == " today";
    SkipPlainText(s, 44, 50);
    assert Scan(s, 44) == [];
    assert Scan(s, 32) == [Span(32, 44)] + Scan(s, 44);
  }

  lemma NormalizePieceA(t: string)
    requires t == "+1 ("
    ensures Normalize(t) == "+1"
  {
    assert t == "+1" + " (";
    NormalizeAppend("+1", " (");
    NormalizeKeeps("+1");
  }

  lemma NormalizePieceB(t: string)
    requires t == "555) "
    ensures Normalize(t) == "555"
  {
    assert t == "555" + ") ";
    NormalizeAppend("555", ") ");
    NormalizeKeeps("555");
  }

  /** Normalizing drops the one separator between two runs of digits. */
  lemma NormalizeDropsOne(a: string, c: char, b: string)
    requires forall k :: 0 <= k < |a| ==> IsDigit(a[k])
    requires forall k :: 0 <= k < |b| ==> IsDigit(b[k])
    requires !IsDigit(c) && c != '+'
    ensures Normalize(a + [c] + b) == a + b
  {
    var ac := a + [c];
    assert Normalize(ac) == a by {
      NormalizeKeeps(a);
      NormalizeAppend(a, [c]);
      assert Normalize([c]) == [];
    }
    assert Normalize(b) == b by {
      NormalizeKeeps(b);
    }
    NormalizeAppend(ac, b);
  }

  lemma NormalizePieceC(t: string)
    requires t == "123-4567"
    ensures Normalize(t) == "1234567"
  {
    assert t == "123" + ['-'] + "4567";
    NormalizeDropsOne("123", '-', "4567");
  }

  lemma NormalizePieceD(t: string)
    requires t == "555.987."
    ensures Normalize(t) == "555987"
  {
    assert t == "555" + ['.'] + "987" + ['.'];
    NormalizeDropsOne("555", '.', "987");
    NormalizeAppend("555" + ['.'] + "987", ['.']);
    assert Normalize(['.']) == [];
  }

  lemma ExampleFirstText(a: string, b: string, c: string)
    requires a == "+1 (" && b == "555) " && c == "123-4567"
    ensures Normalize(a + b + c) == "+15551234567"
  {
    NormalizeAppend(a + b, c);
    NormalizeAppend(a, b);
    NormalizePieceA(a);
    NormalizePieceB(b);
    NormalizePieceC(c);
    assert "+1" + "555" + "1234567" == "+15551234567";
  }

  lemma ExampleSecondText(a: string, b: string)
    requires a == "555.987." && b == "6543"
    ensures Normalize(a + b) == "5559876543"
  {
    NormalizePieceD(a);
    NormalizeKeeps(b);
    NormalizeAppend(a, b);
  }

  lemma ExampleCandidates(s: string)
    requires s == "Call me at " + "+1 (555) " + "123-4567" + " or " + "555.987." + "6543" + " today"
    ensures Candidates(s) == ["+15551234567", "5559876543"]
  {
    ExampleScan(s);
    assert s[11..28] == "+1 (" + "555) " + "123-4567";
    assert s[32..44] == "555.987." + "6543";
    ExampleFirstText("+1 (", "555) ", "123-4567");
    ExampleSecondText("555.987.", "6543");
  }

  lemma ExampleKept(s: string)
    requires s == "Call me at " + "+1 (555) " + "123-4567" + " or " + "555.987." + "6543" + " today"
    ensures Kept(s) == ["+15551234567", "5559876543"]
  {
    ExampleCandidates(s);
    var cs := Candidates(s);
    assert LengthOk(cs[0]) && LengthOk(cs[1]);
    assert cs[1..] == [cs[1]] && cs[1..][1..] == [];
  }

  lemma ExampleDedup(cs: seq<string>)
    requires cs == ["+15551234567", "5559876543"]
    ensures Dedup(cs) == cs
  {
    var init := cs[..1];
    assert init == [cs[0]] && init[..0] == [];
    assert Dedup(init) == init;
    assert cs[1] !in init;
    assert cs == init + [cs[1]];
  }

  /** The worked example: two numbers, the first keeping its `+`, separators stripped. */
  lemma ExtractPhonesExample(s: string)
    requires s == "Call me at " + "+1 (555) " + "123-4567" + " or " + "555.987." + "6543" + " today"
    ensures ExtractPhones(s) == ["+15551234567", "5559876543"]
  {
    ExampleKept(s);
    ExampleDedup(Kept(s));
  }
}

=== FILE: scraper.dfy ===
/** The scraper's control flow with the browser replaced by inputs: the retrying
    navigation, the login check, the scroll loop folding page reads into the merge
    state, and the whole run from navigation to CSV. */
module Scraper {
  import opened Wrappers
  import opened Text
  import opened Seqs
  import opened Extraction
  import opened Csv
  import Json

  // ---- Navigation with retries ----

  /** What one navigation attempt did. */
  datatype Attempt = Loaded | Threw(error: string)

  /** What the retry loop does, in order: navigate, or pause before the next attempt. */
  datatype Action = Navigate | Pause

  const DefaultRetries: int := 3

  /** The shape of a retry trace: attempts separated by pauses, no pause at the end. */
  ghost predicate Alternates(trace: seq<Action>) {
    && (trace == [] || |trace| % 2 == 1)
    && forall k :: 0 <= k < |trace| ==> trace[k] == if k % 2 == 0 then Navigate else Pause
  }

  /** `safeGoto(page, url, retries)` over the outcomes the browser would produce, one
      per possible attempt. */
  method SafeGoto(outcomes: seq<Attempt>, retries: int) returns (r: Result<(), string>, trace: seq<Action>)
    requires retries <= |outcomes|
    ensures Alternates(trace)
    ensures var attempts := (|trace| + 1) / 2;
      && attempts <= (if retries < 0 then 0 else retries)
      && (forall k :: 0 <= k < attempts - 1 ==> outcomes[k].Threw?)
      && (r.Ok? && retries > 0 ==> attempts >= 1 && outcomes[attempts - 1] == Loaded)
      && (r.Err? ==> retries >= 1 && attempts == retries && outcomes[retries - 1].Threw? &&
                     r.error == outcomes[retries - 1].error)
    ensures r.Ok? <==> retries <= 0 || exists k :: 0 <= k < retries && outcomes[k] == Loaded
  {
    trace := [];
    var i := 1;
    while i <= retries
      invariant 1 <= i <= (if retries < 1 then 1 else retries)
      invariant forall k :: 0 <= k < i - 1 ==> outcomes[k].Threw?
      invariant forall k :: 0 <= k < |trace| ==> trace[k] == if k % 2 == 0 then Navigate else Pause
      invariant |trace| == 2 * (i - 1)
    {
      trace := trace + [Navigate];
      if outcomes[i - 1] == Loaded {
        return Ok(()), trace;
      }
      if i == retries {
        return Err(outcomes[i - 1].error), trace;
      }
      trace := trace + [Pause];
      i := i + 1;
    }
    return Ok(()), trace;
  }

  // ---- Login check ----

  const CookiesExpired: string := "COOKIES_EXPIRED"

  /** `verifyLogin`: the session counts as logged out when the address mentions a login
      or checkpoint page or the page shows an e-mail field or a login button. */
  function VerifyLogin(url: string, emailInput: bool, loginButton: bool): (r: Result<(), string>)
    ensures r.Err? <==>
      (exists i :: OccursAt(url, "login", i)) || emailInput || loginButton || (exists i :: OccursAt(url, "checkpoint", i))
    ensures r.Err? ==> r.error == CookiesExpired
  {
    if Contains(url, "login") || emailInput || loginButton || Contains(url, "checkpoint") then Err(CookiesExpired)
    else Ok(())
  }

  // ---- Scroll loop ----

  /** `{ type: "progress", i, total, foundPosts, foundNumbers }`. */
  datatype Progress = Progress(i: int, total: int, foundPosts: nat, foundNumbers: int)

  /** The loop stops once this many numbers were found. */
  const StopAt: int := 800

  /** The state after the first `k` page reads. */
  function After(batches: seq<seq<Post>>, k: nat): State
    requires k <= |batches|
  {
    MergeAll(Start, batches[..k])
  }

  /** The progress record the `k`-th iteration reports. */
  function ReportAfter(batches: seq<seq<Post>>, k: nat, limit: int): Progress
    requires k <= |batches|
  {
    var st := After(batches, k);
    Progress(k, limit, |st.results|, st.totalPhones)
  }

  lemma AfterStep(batches: seq<seq<Post>>, k: nat)
    requires k < |batches|
    ensures After(batches, k + 1) == MergeBatch(After(batches, k), batches[k])
  {
    assert batches[..k + 1][..k] == batches[..k];
  }

  /** The reports of the first `k` iterations. */
  function Reports(batches: seq<seq<Post>>, k: nat, limit: int): (r: seq<Progress>)
    requires k <= |batches|
    ensures |r| == k
  {
    seq(k, j requires 0 <= j < k => ReportAfter(batches, j + 1, limit))
  }

  lemma ReportsSnoc(batches: seq<seq<Post>>, k: nat, limit: int)
    requires 0 < k <= |batches|
    ensures Reports(batches, k, limit) == Reports(batches, k - 1, limit) + [ReportAfter(batches, k, limit)]
  {
    var a := Reports(batches, k, limit);
    var b := Reports(batches, k - 1, limit) + [ReportAfter(batches, k, limit)];
    forall j | 0 <= j < k ensures a[j] == b[j] {
    }
  }

  /** Whether every report but the last is below the stopping threshold. */
  predicate BelowUntilLast(events: seq<Progress>) {
    forall j :: 0 <= j < |events| - 1 ==> events[j].foundNumbers < StopAt
  }

  lemma BelowUntilLastSnoc(events: seq<Progress>, e: Progress)
    requires BelowUntilLast(events)
    requires events == [] || events[|events| - 1].foundNumbers < StopAt
    ensures BelowUntilLast(events + [e])
  {
    forall j | 0 <= j < |events + [e]| - 1 ensures (events + [e])[j].foundNumbers < StopAt {
      assert (events + [e])[j] == events[j];
    }
  }

  /** One more iteration: one more page read merged, one more report. */
  lemma LoopStep(batches: seq<seq<Post>>, k: nat, limit: int)
    requires k < |batches|
    ensures var next := MergeBatch(After(batches, k), batches[k]);
      && next == After(batches, k + 1)
      && Reports(batches, k + 1, limit) ==
         Reports(batches, k, limit) + [Progress(k + 1, limit, |next.results|, next.totalPhones)]
  {
    AfterStep(batches, k);
    ReportsSnoc(batches, k + 1, limit);
  }

  /** What the scroll loop knows after `k` iterations: the state and the reports are those
      of the first `k` page reads, no report but the last reached the threshold, and
      `stop` says whether the last one did. */
  ghost predicate LoopInv(batches: seq<seq<Post>>, limit: int, k: nat, st: State, events: seq<Progress>, stop: bool) {
    && k <= |batches|
    && events == Reports(batches, k, limit)
    && st == After(batches, k)
    && BelowUntilLast(events)
    && (stop <==> |events| > 0 && events[|events| - 1].foundNumbers >= StopAt)
  }

  /** Before the first iteration nothing was read or reported. */
  lemma LoopStart(batches: seq<seq<Post>>, limit: int)
    ensures LoopInv(batches, limit, 0, Start, [], false)
  {
    assert batches[..0] == [];
  }

  /** One iteration that was not stopped keeps the loop's knowledge. */
  lemma LoopAdvance(batches: seq<seq<Post>>, limit: int, k: nat, st: State, events: seq<Progress>, stop: bool)
    requires LoopInv(batches, limit, k, st, events, stop) && !stop && k < |batches|
    ensures var next := MergeBatch(st, batches[k]);
      LoopInv(batches, limit, k + 1, next, events + [Progress(k + 1, limit, |next.results|, next.totalPhones)],
              next.totalPhones >= StopAt)
  {
    LoopStep(batches, k, limit);
    var next := MergeBatch(st, batches[k]);
    BelowUntilLastSnoc(events, Progress(k + 1, limit, |next.results|, next.totalPhones));
  }

  /** The scroll loop over one page read per iteration. */
  method RunLoop(limit: int, batches: seq<seq<Post>>) returns (st: State, events: seq<Progress>)
    requires limit <= |batches|
    ensures |events| <= (if limit < 0 then 0 else limit)
    ensures forall j :: 0 <= j < |events| ==> events[j] == ReportAfter(batches, j + 1, limit)
    ensures st == After(batches, |events|) && Inv(st)
    ensures forall j :: 0 <= j < |events| - 1 ==> events[j].foundNumbers < StopAt
    ensures |events| == (if limit < 0 then 0 else limit) || (|events| > 0 && events[|events| - 1].foundNumbers >= StopAt)
  {
    var k, stop;
    k, st, events, stop := Scroll(limit, batches);
    LoopExit(batches, limit, k, st, events, stop);
  }

  /** The loop itself: it ends after `limit` page reads, or earlier once a report
      reaches the threshold. */
  method Scroll(limit: int, batches: seq<seq<Post>>) returns (k: nat, st: State, events: seq<Progress>, stop: bool)
    requires limit <= |batches|
    ensures LoopInv(batches, limit, k, st, events, stop)
    ensures k <= (if limit < 0 then 0 else limit) && (k == (if limit < 0 then 0 else limit) || stop)
  {
    k, st, events, stop := 0, Start, [], false;
    LoopStart(batches, limit);
    while k < limit && !stop
      invariant k <= (if limit < 0 then 0 else limit)
      invariant LoopInv(batches, limit, k, st, events, stop)
      decreases limit - k
    {
      LoopAdvance(batches, limit, k, st, events, stop);
      st := MergeBatch(st, batches[k]);
      events := events + [Progress(k + 1, limit, |st.results|, st.totalPhones)];
      stop := st.totalPhones >= StopAt;
      k := k + 1;
    }
  }

  /** Where the loop ends, by the limit or by the threshold, its knowledge gives the
      loop's promises. */
  lemma LoopExit(batches: seq<seq<Post>>, limit: int, k: nat, st: State, events: seq<Progress>, stop: bool)
    requires LoopInv(batches, limit, k, st, events, stop)
    requires k <= (if limit < 0 then 0 else limit) && (k == (if limit < 0 then 0 else limit) || stop)
    ensures |events| <= (if limit < 0 then 0 else limit)
    ensures forall j :: 0 <= j < |events| ==> events[j] == ReportAfter(batches, j + 1, limit)
    ensures st == After(batches, |events|) && Inv(st)
    ensures forall j :: 0 <= j < |events| - 1 ==> events[j].foundNumbers < StopAt
    ensures |events| == (if limit < 0 then 0 else limit) || (|events| > 0 && events[|events| - 1].foundNumbers >= StopAt)
  {
    AfterInv(batches, |events|);
    ReportsIndex(batches, |events|, limit, events);
  }

  lemma ReportsIndex(batches: seq<seq<Post>>, k: nat, limit: int, events: seq<Progress>)
    requires k <= |batches| && events == Reports(batches, k, limit)
    ensures forall j :: 0 <= j < |events| ==> events[j] == ReportAfter(batches, j + 1, limit)
  {
  }

  lemma AfterInv(batches: seq<seq<Post>>, k: nat)
    requires k <= |batches|
    ensures Inv(After(batches, k))
  {
    StartInv();
    MergeAllInv(Start, batches[..k]);
  }

  /** Progress never goes backwards: later reports show at least as many rows and numbers. */
  lemma ProgressMonotone(batches: seq<seq<Post>>, limit: int, j: nat, k: nat)
    requires j <= k <= |batches|
    ensures ReportAfter(batches, j, limit).foundPosts <= ReportAfter(batches, k, limit).foundPosts
    ensures ReportAfter(batches, j, limit).foundNumbers <= ReportAfter(batches, k, limit).foundNumbers
  {
    MergeAllPrefix(Start, batches[..k], j);
    assert batches[..k][..j] == batches[..j];
  }

  lemma {:induction false} MergeAllPrefix(st: State, batches: seq<seq<Post>>, j: nat)
    requires j <= |batches|
    ensures |MergeAll(st, batches[..j]).results| <= |MergeAll(st, batches).results|
    ensures MergeAll(st, batches[..j]).totalPhones <= MergeAll(st, batches).totalPhones
  {
    if j < |batches| {
      var init := batches[..|batches| - 1];
      assert init[..j] == batches[..j];
      MergeAllPrefix(st, init, j);
    } else {
      assert batches[..j] == batches;
    }
  }

  /** Every report shows as many numbers as distinct numbers were seen. */
  lemma ReportCountsDistinct(batches: seq<seq<Post>>, k: nat, limit: int)
    requires k <= |batches|
    ensures ReportAfter(batches, k, limit).foundNumbers == |After(batches, k).seenPhones|
  {
    MergeAllInv(Start, batches[..k]);
    StartInv();
    TotalIsSeenCount(After(batches, k));
  }

  // ---- The whole run ----

  /** What the browser does during one run, supplied as data: the outcome of opening the
      home page (only when cookies are given), one outcome per navigation attempt, the
      address and login widgets of the page reached, and one page read per scroll. */
  datatype Browser = Browser(
    home: Attempt,
    attempts: seq<Attempt>,
    url: string,
    emailInput: bool,
    loginButton: bool,
    batches: seq<seq<Post>>)

  /** The TypeError thrown by `delete c.sameSite` on a `null` cookie. */
  const NullCookieError: string := "Cannot convert undefined or null to object"

  /** Whether the cookie step lets the run go on: no cookies, or the home page opened
      and no cookie is `null`. */
  predicate CookiesApplied(cookies: seq<Json.Json>, home: Attempt) {
    cookies == [] || (home.Loaded? && Json.JNull !in cookies)
  }

  /** `scrapeFacebookGroup`: the cookie step, navigation, the login check, the scroll
      loop and the CSV. `fileName` stands for the time-stamped name the run picks. */
  method Scrape(limit: int, cookies: seq<Json.Json>, browser: Browser, fileName: string)
    returns (r: Result<(string, string), string>, events: seq<Progress>)
    requires DefaultRetries <= |browser.attempts| && limit <= |browser.batches|
    ensures cookies != [] && browser.home.Threw? ==> r == Err(browser.home.error) && events == []
    ensures cookies != [] && browser.home.Loaded? && Json.JNull in cookies ==> r == Err(NullCookieError) && events == []
    ensures (&& CookiesApplied(cookies, browser.home)
             && forall k :: 0 <= k < DefaultRetries ==> browser.attempts[k] != Loaded)
            ==> r == Err(browser.attempts[DefaultRetries - 1].error) && events == []
    ensures (&& CookiesApplied(cookies, browser.home)
             && (exists k :: 0 <= k < DefaultRetries && browser.attempts[k] == Loaded)
             && VerifyLogin(browser.url, browser.emailInput, browser.loginButton).Err?)
            ==> r == Err(CookiesExpired) && events == []
    ensures events != [] ==> r.Ok?
    ensures |events| <= (if limit < 0 then 0 else limit)
    ensures forall j :: 0 <= j < |events| ==> events[j] == ReportAfter(browser.batches, j + 1, limit)
    ensures forall j :: 0 <= j < |events| - 1 ==> events[j].foundNumbers < StopAt
    ensures r.Ok? ==> |events| == (if limit < 0 then 0 else limit) || (|events| > 0 && events[|events| - 1].foundNumbers >= StopAt)
    ensures r.Ok? ==>
      && CookiesApplied(cookies, browser.home)
      && (exists k :: 0 <= k < DefaultRetries && browser.attempts[k] == Loaded)
      && VerifyLogin(browser.url, browser.emailInput, browser.loginButton).Ok?
      && r.value.1 == fileName
      && var st := After(browser.batches, |events|);
         ParseCsv(r.value.0) == Some(AllFields(st.results))
  {
    events := [];
    if cookies != [] {
      if browser.home.Threw? {
        return Err(browser.home.error), events;
      }
      if Json.JNull in cookies {
        return Err(NullCookieError), events;
      }
    }
    var nav, trace := SafeGoto(browser.attempts, DefaultRetries);
    if nav.Err? {
      return Err(nav.error), events;
    }
    var login := VerifyLogin(browser.url, browser.emailInput, browser.loginButton);
    if login.Err? {
      return Err(login.error), events;
    }
    var st;
    st, events := RunLoop(limit, browser.batches);
    ParseBuildCsv(st.results);
    r := Ok((BuildCsv(st.results), fileName));
  }

  /** Every phone column of a finished run reads back as that row's numbers. */
  lemma CsvRowsReadBack(batches: seq<seq<Post>>, k: nat)
    requires k <= |batches|
    ensures var st := After(batches, k);
      ParseCsv(BuildCsv(st.results)) == Some(AllFields(st.results)) &&
      forall i :: 0 <= i < |st.results| ==>
        AllFields(st.results)[i].0 == st.results[i].postUser &&
        Split(AllFields(st.results)[i].1, PhoneSeparator) == st.results[i].phones
  {
    var st := After(batches, k);
    StartInv();
    MergeAllInv(Start, batches[..k]);
    ParseBuildCsv(st.results);
    forall i | 0 <= i < |st.results|
      ensures Split(AllFields(st.results)[i].1, PhoneSeparator) == st.results[i].phones
    {
      PostPhonesSplit(st, i);
    }
  }
}

=== FILE: seqs.dfy ===
/** Generic facts about sequences: duplicate-freedom, first occurrences,
    order-preserving filtering and first-occurrence deduplication. */
module Seqs {

  /** No element occurs twice. */
  ghost predicate NoDup<T>(xs: seq<T>) {
    forall i, j :: 0 <= i < j < |xs| ==> xs[i] != xs[j]
  }

  /** The index of the first occurrence of `x` in `xs`. */
  function IndexOf<T(==)>(xs: seq<T>, x: T): (k: nat)
    requires x in xs
    ensures k < |xs| && xs[k] == x
    ensures x !in xs[..k]
  {
    if xs[0] == x then 0 else 1 + IndexOf(xs[1..], x)
  }

  /** Appending an element leaves the first occurrence of earlier elements where it was. */
  lemma {:induction false} IndexOfSnoc<T>(xs: seq<T>, y: T, x: T)
    requires x in xs
    ensures x in xs + [y] && IndexOf(xs + [y], x) == IndexOf(xs, x)
  {
    if xs[0] != x {
      assert (xs + [y])[1..] == xs[1..] + [y];
      IndexOfSnoc(xs[1..], y, x);
    }
  }

  /** A duplicate-free sequence has as many distinct elements as entries. */
  lemma {:induction false} NoDupCard<T>(xs: seq<T>)
    requires NoDup(xs)
    ensures |set x | x in xs| == |xs|
  {
    if xs != [] {
      var init := xs[..|xs| - 1];
      var last := xs[|xs| - 1];
      assert NoDup(init);
      NoDupCard(init);
      assert (set x | x in xs) == (set x | x in init) + {last};
      assert last !in init;
    }
  }

  /** Keeps, in their original order, the elements of `xs` not seen earlier in `xs`.
      Written on the last element so that extending the input is one unfolding. */
  function Dedup<T(==)>(xs: seq<T>): (r: seq<T>)
    ensures NoDup(r)
    ensures forall i :: 0 <= i < |r| ==> r[i] in xs
    ensures forall i :: 0 <= i < |xs| ==> xs[i] in r
    ensures forall i, j :: 0 <= i < j < |r| ==> IndexOf(xs, r[i]) < IndexOf(xs, r[j])
  {
    if xs == [] then []
    else
      var init := xs[..|xs| - 1];
      var last := xs[|xs| - 1];
      var d := Dedup(init);
      assert xs == init + [last];
      if last in init then
        DedupSnocSeen(init, last, d);
        d
      else
        DedupSnocNew(init, last, d);
        d + [last]
  }

  /** An element seen before changes nothing `Dedup` promises. */
  lemma DedupSnocSeen<T>(init: seq<T>, last: T, d: seq<T>)
    requires last in init
    requires forall i :: 0 <= i < |d| ==> d[i] in init
    requires forall i :: 0 <= i < |init| ==> init[i] in d
    requires forall i, j :: 0 <= i < j < |d| ==> IndexOf(init, d[i]) < IndexOf(init, d[j])
    ensures forall i :: 0 <= i < |d| ==> d[i] in init + [last]
    ensures forall i :: 0 <= i < |init + [last]| ==> (init + [last])[i] in d
    ensures forall i, j :: 0 <= i < j < |d| ==> IndexOf(init + [last], d[i]) < IndexOf(init + [last], d[j])
  {
    forall i, j | 0 <= i < j < |d| ensures IndexOf(init + [last], d[i]) < IndexOf(init + [last], d[j]) {
      IndexOfSnoc(init, last, d[i]);
      IndexOfSnoc(init, last, d[j]);
    }
    forall i | 0 <= i < |init + [last]| ensures (init + [last])[i] in d {
      if i < |init| {
        assert (init + [last])[i] == init[i];
      }
    }
  }

  /** A new element is kept, after everything kept before. */
  lemma DedupSnocNew<T>(init: seq<T>, last: T, d: seq<T>)
    requires last !in init
    requires NoDup(d)
    requires forall i :: 0 <= i < |d| ==> d[i] in init
    requires forall i :: 0 <= i < |init| ==> init[i] in d
    requires forall i, j :: 0 <= i < j < |d| ==> IndexOf(init, d[i]) < IndexOf(init, d[j])
    ensures NoDup(d + [last])
    ensures forall i :: 0 <= i < |d + [last]| ==> (d + [last])[i] in init + [last]
    ensures forall i :: 0 <= i < |init + [last]| ==> (init + [last])[i] in d + [last]
    ensures forall i, j :: 0 <= i < j < |d + [last]| ==> IndexOf(init + [last], (d + [last])[i]) < IndexOf(init + [last], (d + [last])[j])
  {
    var xs := init + [last];
    var r := d + [last];
    DedupNewOrder(init, last, d);
    forall i | 0 <= i < |xs| ensures xs[i] in r {
      if i < |init| {
        assert xs[i] == init[i];
      }
    }
  }

  lemma DedupNewOrder<T>(init: seq<T>, last: T, d: seq<T>)
    requires last !in init
    requires forall i :: 0 <= i < |d| ==> d[i] in init
    requires forall i, j :: 0 <= i < j < |d| ==> IndexOf(init, d[i]) < IndexOf(init, d[j])
    ensures forall i, j :: 0 <= i < j < |d + [last]| ==> IndexOf(init + [last], (d + [last])[i]) < IndexOf(init + [last], (d + [last])[j])
  {
    var xs := init + [last];
    var r := d + [last];
    assert IndexOf(xs, last) == |init| by {
      assert xs[..|init|] == init;
    }
    forall i, j | 0 <= i < j < |r| ensures IndexOf(xs, r[i]) < IndexOf(xs, r[j]) {
      assert r[i] == d[i];
      IndexOfSnoc(init, last, r[i]);
      if j < |d| {
        assert r[j] == d[j];
        IndexOfSnoc(init, last, r[j]);
      }
    }
  }

  /** Keeps, in their original order, the elements of `xs` that satisfy `p`. */
  function Filter<T>(xs: seq<T>, p: T -> bool): (r: seq<T>)
    ensures |r| <= |xs|
    ensures forall i :: 0 <= i < |r| ==> r[i] in xs && p(r[i])
    ensures forall i :: 0 <= i < |xs| && p(xs[i]) ==> xs[i] in r
  {
    if xs == [] then []
    else if p(xs[0]) then [xs[0]] + Filter(xs[1..], p)
    else Filter(xs[1..], p)
  }

  /** The filter keeps nothing exactly when no element satisfies `p`. */
  lemma FilterEmpty<T>(xs: seq<T>, p: T -> bool)
    ensures Filter(xs, p) == [] <==> forall i :: 0 <= i < |xs| ==> !p(xs[i])
  {
    var r := Filter(xs, p);
    if r != [] {
      assert r[0] in xs && p(r[0]);
    }
  }

  /** Filtering a concatenation filters each part: the kept elements stay in input order. */
  lemma {:induction false} FilterAppend<T>(xs: seq<T>, ys: seq<T>, p: T -> bool)
    ensures Filter(xs + ys, p) == Filter(xs, p) + Filter(ys, p)
  {
    if xs != [] {
      var t := xs[1..];
      assert (xs + ys)[0] == xs[0] && (xs + ys)[1..] == t + ys;
      FilterAppend(t, ys, p);
      if p(xs[0]) {
        assert [xs[0]] + (Filter(t, p) + Filter(ys, p)) == ([xs[0]] + Filter(t, p)) + Filter(ys, p);
      }
    } else {
      assert xs + ys == ys;
    }
  }

  /** Filtering a duplicate-free sequence keeps it duplicate-free. */
  lemma {:induction false} FilterNoDup<T>(xs: seq<T>, p: T -> bool)
    requires NoDup(xs)
    ensures NoDup(Filter(xs, p))
  {
    if xs != [] {
      assert NoDup(xs[1..]);
      FilterNoDup(xs[1..], p);
      assert xs[0] !in xs[1..];
    }
  }

  /** Two duplicate-free sequences with no element in common concatenate to a
      duplicate-free sequence. */
  lemma NoDupAppend<T>(xs: seq<T>, ys: seq<T>)
    requires NoDup(xs) && NoDup(ys)
    requires forall j :: 0 <= j < |ys| ==> ys[j] !in xs
    ensures NoDup(xs + ys)
  {
    forall i, j | 0 <= i < j < |xs + ys|
      ensures (xs + ys)[i] != (xs + ys)[j]
    {
      if i < |xs| && j >= |xs| {
        assert (xs + ys)[j] == ys[j - |xs|];
      }
    }
  }

  /** Filtering keeps the survivors in the order of their first occurrence in the input. */
  lemma {:induction false} FilterKeepsOrder<T>(xs: seq<T>, p: T -> bool)
    requires NoDup(xs)
    ensures forall i, j :: 0 <= i < j < |Filter(xs, p)| ==>
      IndexOf(xs, Filter(xs, p)[i]) < IndexOf(xs, Filter(xs, p)[j])
  {
    if xs != [] {
      assert NoDup(xs[1..]);
      FilterKeepsOrder(xs[1..], p);
      FilterOrderCons(xs, p);
    }
  }

  lemma FilterOrderCons<T>(xs: seq<T>, p: T -> bool)
    requires NoDup(xs) && xs != []
    requires forall i, j :: 0 <= i < j < |Filter(xs[1..], p)| ==>
      IndexOf(xs[1..], Filter(xs[1..], p)[i]) < IndexOf(xs[1..], Filter(xs[1..], p)[j])
    ensures forall i, j :: 0 <= i < j < |Filter(xs, p)| ==>
      IndexOf(xs, Filter(xs, p)[i]) < IndexOf(xs, Filter(xs, p)[j])
  {
    var tail := xs[1..];
    var ft := Filter(tail, p);
    var r := Filter(xs, p);
    assert forall y :: y in tail ==> IndexOf(xs, y) == 1 + IndexOf(tail, y) by {
      forall y | y in tail ensures IndexOf(xs, y) == 1 + IndexOf(tail, y) {
        assert xs[0] != y;
      }
    }
    assert forall k :: 0 <= k < |ft| ==> ft[k] in tail;
    if p(xs[0]) {
      assert r == [xs[0]] + ft;
      assert IndexOf(xs, xs[0]) == 0;
    } else {
      assert r == ft;
    }
  }
}

=== FILE: text.dfy ===
/** String primitives of the JavaScript runtime that the source relies on:
    the white-space class, trimming, substring search, ASCII case folding,
    joining and splitting, and decimal integers (`String(n)` and `parseInt(s, 10)`).
    A Dafny `char` is a Unicode scalar value, while JavaScript counts UTF-16 code
    units. The two agree on text in the Basic Multilingual Plane; on text with
    characters outside it (emoji, for example) lengths and slices differ. */
module Text {
  import opened Wrappers

  /** The characters matched by the regular-expression class `\s` and removed by
      `String.prototype.trim`: JavaScript's WhiteSpace and LineTerminator sets. */
  predicate IsSpace(c: char) {
    || c == '\t' || c == '\n' || c == '\U{0B}' || c == '\U{0C}' || c == '\r' || c == ' '
    || c == '\U{A0}' || c == '\U{1680}' || ('\U{2000}' <= c <= '\U{200A}')
    || c == '\U{2028}' || c == '\U{2029}' || c == '\U{202F}' || c == '\U{205F}'
    || c == '\U{3000}' || c == '\U{FEFF}'
  }

  /** The class `\d` (ASCII digits only, as in a regular expression without the `u` flag). */
  predicate IsDigit(c: char) {
    '0' <= c <= '9'
  }

  /** Removes leading white space. */
  function TrimStart(s: string): (r: string)
    ensures |r| <= |s| && r == s[|s| - |r|..]
    ensures forall k :: 0 <= k < |s| - |r| ==> IsSpace(s[k])
    ensures r == [] || !IsSpace(r[0])
  {
    if s != [] && IsSpace(s[0]) then TrimStart(s[1..]) else s
  }

  /** Removes trailing white space. */
  function TrimEnd(s: string): (r: string)
    ensures |r| <= |s| && r == s[..|r|]
    ensures forall k :: |r| <= k < |s| ==> IsSpace(s[k])
    ensures r == [] || !IsSpace(r[|r| - 1])
  {
    if s != [] && IsSpace(s[|s| - 1]) then TrimEnd(s[..|s| - 1]) else s
  }

  /** `String.prototype.trim`. */
  function Trim(s: string): string {
    TrimEnd(TrimStart(s))
  }

  /** A trimmed string neither starts nor ends with white space. */
  ghost predicate Trimmed(s: string) {
    s == [] || (!IsSpace(s[0]) && !IsSpace(s[|s| - 1]))
  }

  lemma TrimIsTrimmed(s: string)
    ensures Trimmed(Trim(s))
    ensures Trim(s) == [] <==> forall k :: 0 <= k < |s| ==> IsSpace(s[k])
  {
    var a := TrimStart(s);
    var r := TrimEnd(a);
    if r != [] {
      assert r[0] == a[0];
    }
    assert a != [] ==> IsSpace(a[0]) || r != [];
  }

  /** Trimming leaves a trimmed string as it is, so trimming twice is trimming once. */
  lemma TrimUnchanged(s: string)
    requires Trimmed(s)
    ensures Trim(s) == s
  {
    if s != [] {
      assert TrimStart(s) == s;
    }
  }

  /** `pat` occurs in `s` starting at index `i`. */
  ghost predicate OccursAt(s: string, pat: string, i: int) {
    0 <= i && i + |pat| <= |s| && s[i..i + |pat|] == pat
  }

  /** `String.prototype.includes`, as a left-to-right search. */
  function Contains(s: string, pat: string): (r: bool)
    ensures r <==> exists i :: OccursAt(s, pat, i)
    decreases |s|
  {
    if |pat| > |s| then
      assert forall i :: !OccursAt(s, pat, i);
      false
    else if s[..|pat|] == pat then
      assert OccursAt(s, pat, 0);
      true
    else
      var r := Contains(s[1..], pat);
      assert !OccursAt(s, pat, 0);
      assert r ==> exists i :: OccursAt(s, pat, i) by {
        if r {
          var i :| OccursAt(s[1..], pat, i);
          assert s[1..][i..i + |pat|] == s[i + 1..i + 1 + |pat|];
          assert OccursAt(s, pat, i + 1);
        }
      }
      assert (exists i :: OccursAt(s, pat, i)) ==> r by {
        if exists i :: OccursAt(s, pat, i) {
          var i :| OccursAt(s, pat, i);
          assert i > 0;
          assert s[1..][i - 1..i - 1 + |pat|] == s[i..i + |pat|];
          assert OccursAt(s[1..], pat, i - 1);
        }
      }
      r
  }

  /** ASCII case folding: the only folding a case-insensitive JavaScript regular
      expression without the `u` flag applies between ASCII letters. */
  function LowerChar(c: char): char {
    if 'A' <= c <= 'Z' then (c as int + 32) as char else c
  }

  function Lower(s: string): (r: string)
    ensures |r| == |s| && forall k :: 0 <= k < |s| ==> r[k] == LowerChar(s[k])
  {
    seq(|s|, k requires 0 <= k < |s| => LowerChar(s[k]))
  }

  /** A case-insensitive search for `pat` in `s` (the `/i` flag). */
  function ContainsIgnoreCase(s: string, pat: string): bool {
    Contains(Lower(s), Lower(pat))
  }

  /** `Array.prototype.join`. */
  function Join(xs: seq<string>, sep: string): string {
    if xs == [] then []
    else if |xs| == 1 then xs[0]
    else xs[0] + sep + Join(xs[1..], sep)
  }

  /** `String.prototype.split` on a non-empty separator, scanning left to right;
      `cur` is the part of the current piece read so far. */
  function SplitFrom(s: string, sep: string, cur: string): (r: seq<string>)
    requires |sep| > 0
    ensures |r| >= 1
    decreases |s|
  {
    if s == [] then [cur]
    else if |sep| <= |s| && s[..|sep|] == sep then [cur] + SplitFrom(s[|sep|..], sep, [])
    else SplitFrom(s[1..], sep, cur + [s[0]])
  }

  function Split(s: string, sep: string): seq<string>
    requires |sep| > 0
  {
    SplitFrom(s, sep, [])
  }

  /** Reading a piece that does not contain the separator's first character. */
  lemma {:induction false} SplitFromPiece(x: string, rest: string, sep: string, cur: string)
    requires |sep| > 0 && sep[0] !in x
    ensures SplitFrom(x + rest, sep, cur) == SplitFrom(rest, sep, cur + x)
    decreases |x|
  {
    if x == [] {
      assert x + rest == rest;
      assert cur + x == cur;
    } else {
      assert (x + rest)[0] == x[0];
      if |sep| <= |x + rest| {
        assert (x + rest)[..|sep|][0] == x[0];
        assert (x + rest)[..|sep|] != sep;
      }
      assert (x + rest)[1..] == x[1..] + rest;
      SplitFromPiece(x[1..], rest, sep, cur + [x[0]]);
      assert cur + [x[0]] + x[1..] == cur + x;
    }
  }

  /** Splitting a join on its separator recovers the pieces, provided no piece
      contains the separator's first character. */
  lemma {:induction false} SplitJoin(xs: seq<string>, sep: string)
    requires |sep| > 0 && |xs| >= 1
    requires forall i :: 0 <= i < |xs| ==> sep[0] !in xs[i]
    ensures Split(Join(xs, sep), sep) == xs
    decreases |xs|
  {
    if |xs| == 1 {
      assert Join(xs, sep) == xs[0] + [];
      SplitFromPiece(xs[0], [], sep, []);
      assert [] + xs[0] == xs[0];
      assert xs == [xs[0]];
    } else {
      var rest := sep + Join(xs[1..], sep);
      assert Join(xs, sep) == xs[0] + rest;
      SplitFromPiece(xs[0], rest, sep, []);
      assert rest[..|sep|] == sep;
      assert rest[|sep|..] == Join(xs[1..], sep);
      SplitJoin(xs[1..], sep);
      assert [] + xs[0] == xs[0];
    }
  }

  function DigitChar(d: nat): char
    requires d < 10
  {
    ('0' as int + d) as char
  }

  function DigitValue(c: char): nat
    requires IsDigit(c)
  {
    c as int - '0' as int
  }

  /** The decimal digits of a natural number, without leading zeros. */
  function NatToString(n: nat): (r: string)
    ensures |r| >= 1 && forall k :: 0 <= k < |r| ==> IsDigit(r[k])
  {
    if n < 10 then [DigitChar(n)] else NatToString(n / 10) + [DigitChar(n % 10)]
  }

  /** `String(n)` for an integer-valued number. */
  function IntToString(n: int): string {
    if n < 0 then "-" + NatToString(-n) else NatToString(n)
  }

  /** The value of a string of decimal digits, most significant first. */
  function DigitsValue(ds: string): nat
    requires forall k :: 0 <= k < |ds| ==> IsDigit(ds[k])
  {
    if ds == [] then 0 else 10 * DigitsValue(ds[..|ds| - 1]) + DigitValue(ds[|ds| - 1])
  }

  /** The longest prefix of `s` made of decimal digits. */
  function LeadingDigits(s: string): (r: string)
    ensures |r| <= |s| && r == s[..|r|]
    ensures forall k :: 0 <= k < |r| ==> IsDigit(r[k])
    ensures |r| == |s| || !IsDigit(s[|r|])
  {
    if s != [] && IsDigit(s[0]) then [s[0]] + LeadingDigits(s[1..]) else []
  }

  /** `parseInt(s, 10)`: leading white space, an optional sign, then the longest run of
      decimal digits; `None` stands for NaN (no digit where one is required). */
  function ParseInt(s: string): Option<int> {
    ParseSigned(TrimStart(s))
  }

  function ParseSigned(t: string): Option<int> {
    if t != [] && t[0] == '-' then
      match ParseDigits(t[1..])
      case None => None
      case Some(v) => Some(-v)
    else if t != [] && t[0] == '+' then ParseDigits(t[1..])
    else ParseDigits(t)
  }

  function ParseDigits(b: string): Option<int> {
    var ds := LeadingDigits(b);
    if ds == [] then None else Some(DigitsValue(ds))
  }

  lemma {:induction false} DigitsValueOfNat(n: nat)
    ensures DigitsValue(NatToString(n)) == n
  {
    if n >= 10 {
      var r := NatToString(n);
      assert r[..|r| - 1] == NatToString(n / 10);
      DigitsValueOfNat(n / 10);
    }
  }

  lemma {:induction false} LeadingDigitsAll(ds: string, rest: string)
    requires forall k :: 0 <= k < |ds| ==> IsDigit(ds[k])
    requires rest == [] || !IsDigit(rest[0])
    ensures LeadingDigits(ds + rest) == ds
  {
    if ds != [] {
      assert (ds + rest)[1..] == ds[1..] + rest;
      LeadingDigitsAll(ds[1..], rest);
    } else {
      assert ds + rest == rest;
    }
  }

  /** Parsing a sign-free run of digits that fills the whole string. */
  lemma ParseIntOfDigits(ds: string)
    requires |ds| >= 1 && forall k :: 0 <= k < |ds| ==> IsDigit(ds[k])
    ensures ParseDigits(ds) == Some(DigitsValue(ds) as int)
    ensures ParseInt(ds) == Some(DigitsValue(ds) as int)
  {
    LeadingDigitsAll(ds, []);
    assert ds + [] == ds;
    TrimStartAt(ds);
  }

  /** Parsing a minus sign followed by a run of digits that fills the whole string. */
  lemma ParseIntOfNegDigits(ds: string, m: string)
    requires |ds| >= 1 && forall k :: 0 <= k < |ds| ==> IsDigit(ds[k])
    requires m == ['-'] + ds
    ensures ParseInt(m) == Some(-(DigitsValue(ds) as int))
  {
    assert ParseDigits(m[1..]) == Some(DigitsValue(ds) as int) by {
      ParseIntOfDigits(ds);
      assert m[1..] == ds;
    }
    assert TrimStart(m) == m by {
      TrimStartAt(m);
    }
    ParseSignedMinus(m, DigitsValue(ds));
  }

  lemma ParseSignedMinus(m: string, v: int)
    requires m != [] && m[0] == '-'
    requires ParseDigits(m[1..]) == Some(v)
    ensures ParseSigned(m) == Some(-v)
  {
  }

  lemma TrimStartAt(s: string)
    requires s != [] && (IsDigit(s[0]) || s[0] == '-')
    ensures TrimStart(s) == s
  {
    assert !IsSpace(s[0]);
  }

  /** `parseInt(String(n), 10) == n`: the printer and the parser agree on every integer. */
  lemma ParseIntOfString(n: int)
    ensures ParseInt(IntToString(n)) == Some(n)
  {
    if n < 0 {
      ParseIntOfNegative(n);
    } else {
      ParseIntOfNat(n);
    }
  }

  lemma ParseIntOfNat(n: nat)
    ensures ParseInt(NatToString(n)) == Some(n)
  {
    ParseIntOfDigits(NatToString(n));
    DigitsValueOfNat(n);
  }

  lemma ParseIntOfNegative(n: int)
    requires n < 0
    ensures ParseInt(IntToString(n)) == Some(n)
  {
    var m: nat := -n;
    var ds := NatToString(m);
    var t := IntToString(n);
    assert t == ['-'] + ds;
    ParseIntOfNegDigits(ds, t);
    assert DigitsValue(ds) == m by {
      DigitsValueOfNat(m);
    }
  }
}

=== FILE: wrappers.dfy ===
/** Optional values and success/failure results shared by every module. */
module Wrappers {

  /** A value that may be absent (JavaScript's `undefined`, or a lookup that misses). */
  datatype Option<+T> = None | Some(value: T)

  /** The outcome of an operation that can throw: `Ok` carries the value, `Err` the error. */
  datatype Result<+T, +E> = Ok(value: T) | Err(error: E)
}
